=== FILE: README.md ===
# Malicious-webpage feature extraction, modelled in Dafny

This project models the core of a small Python pipeline. The pipeline turns a
directory of HTML pages into a feature table and prepares that table for a
topic model. Two parts are modelled:

- **Page features** (`webparse.py`). `WebpageParser.parse` computes one row
  per HTML file. The row has a lemmatised title, an English flag, image, form,
  login-form and script signals, and the cleaned body tokens. It also has
  named-entity counts and one 0/1 flag per tracked entity. `parse_html`
  computes the smaller record. `remove_non_displayable` filters characters,
  and the constructor strips the dots from the ccTLD list.
- **Dataset cleaning** (`model.py`, lines 21-38 and 44-48). These lines keep
  English rows with at least 10 tokens and a known label. They rewrite
  `text_clean` with five literal replacements. They also define the custom
  stop-word list.

The HTML parser, tokenizer, lemmatizer, language detector and entity
recogniser are not interpreted. They are function-valued fields of
`Nlp.Library`. The parser and the detector return `Option`, so that their
exceptions can be modelled. A parsed page (`Dom.Document`) is its tags in
document order plus its `get_text()`. The directory walk is given as the
sequence of files it yields.

Modules:
- `Wrappers`: `Option` and `Result`.
- `Seqs`: `Filter`, `Map` and subsequences.
- `Text`: the Python string operations used.
- `Dom`: the parsed page.
- `Nlp`: the library oracles and the reference data.
- `Table`: cells and rows.
- `Scripts`: the base64 script test.
- `WebParse`: the feature rules, `parse_html` and the row of `parse`.
- `Corpus`: the file loop of `parse`.
- `Dataset`: the `model.py` cleaning.

Three behaviours of the code are worth stating up front:
- `has_form` comes from two exact-match searches, one for method "POST" and
  one for "post". A form whose method is "Post" does not set it, although
  `is_post` would accept that form. `WebParse.HasForm` models the two
  searches, and `WebParse.HasFormIsCaseSensitive` exhibits the "Post" case.
- The title is stripped and lower-cased first. Non-printable characters are
  removed only after that (`WebParse.TitleInput`).
- The entity list is a list, not a set. A name listed twice is counted twice
  in `nb_title_entities`.

## Model

| member | source | states |
|---|---|---|
| Text.RemoveNonDisplayable | webparse.py:30-32 | every kept character is in `string.printable`, every printable character of the input is kept, and the result is a subsequence of the input |
| Text.RemoveNonDisplayableIdempotent | webparse.py:30-32 | filtering an already filtered text changes nothing |
| Text.RemoveNonDisplayableIsCharwise | webparse.py:30-32 | the filter distributes over concatenation, so it decides character by character |
| Nlp.StripDots | webparse.py:53 | a stored ccTLD is the original with exactly its '.' characters deleted, the other characters in order; it contains no '.' |
| Nlp.StripDotsKeepsDotless | webparse.py:53 | a ccTLD without dots is stored unchanged |
| Nlp.LoadCcTlds | webparse.py:49-53 | the stored list is every catalogue ccTLD, in catalogue order and with duplicates kept, each with its dots removed; so every catalogue ccTLD is present without dots, and every stored entry comes from one |
| Nlp.LoadEntities | webparse.py:40-45 | the stored list is every catalogue name, in catalogue order and with duplicates kept, each lower-cased; so every catalogue name is present lower-cased, and every stored entry comes from one |
| Text.ToLower | webparse.py:161 | the model's ASCII-only `str.lower`: the length is kept, each of A-Z becomes its lower-case letter, and every other character is kept |
| Text.Strip | webparse.py:161 | `str.strip` returns a contiguous slice of the input with only whitespace outside it; it neither starts nor ends with whitespace, and keeps every other character |
| Text.ReplaceCharByNothing | webparse.py:53 | replacing one character by "" deletes exactly its occurrences and keeps the rest in order |
| Text.ReplaceCharByChar | webparse.py:225 | replacing one character by another keeps the length and changes exactly the positions holding that character |
| Dom.Title | webparse.py:160 | `soup.title` is None iff the page has no title tag; otherwise it is the first title tag in document order |
| Dom.FindAllWith | webparse.py:177-178 | `find_all(name, {key: value})` returns exactly the tags with that name whose attribute equals the value exactly |
| WebParse.TitleInput | webparse.py:161 | the text handed to the title tokenizer is printable and has no upper-case ASCII letter |
| WebParse.TitleRaw | webparse.py:72-76 | `title_raw` is "" when the page has no usable title or the title has no tokens; otherwise splitting it on spaces gives back the title tokens, when there is at least one and none contains a space |
| WebParse.TitleClean | webparse.py:160-165 | `title_clean` is "" when the page has no usable title or the title has no tokens; otherwise splitting it on spaces gives back the lemma of each title token, in order, when there is at least one and none contains a space |
| WebParse.TitleFeature | webparse.py:160-165 | the title feature is "" when there is no title tag or its `.string` is None; otherwise it comes from tokenizing the cleaned title of the first title tag |
| WebParse.HasForm | webparse.py:177-180 | `has_form` is set iff some form's method is exactly "POST" or exactly "post" |
| WebParse.HasFormIsCaseSensitive | webparse.py:27-28 | every such form passes `is_post`, but a form with method "Post" passes `is_post` and leaves `has_form` unset |
| WebParse.HasLoginForm | webparse.py:181 | `has_login_form` is set iff the page has a password input anywhere, inside a form or not |
| Dom.FindAllCount | webparse.py:179 | `find_all(name)` returns as many tags as the page has tags of that name |
| WebParse.ImgCount | webparse.py:179 | `img_count` is the number of img tags on the page; so it is at most the number of tags, and positive iff the page has an img tag |
| Scripts.DataUriIsRegexSearch | webparse.py:194 | the search for `data:[a-zA-Z0-9+/]+={0,2}` succeeds iff "data:" is followed somewhere by one base64 character |
| Scripts.ScanScripts | webparse.py:184-196 | the loop with `break` yields 1 iff some script without `src` has content matching the regex, and 0 otherwise |
| WebParse.EmptyTokenIsPunctuation | webparse.py:210 | the empty token is a substring of `string.punctuation`, so it is always dropped |
| WebParse.PageStopWords | webparse.py:209 | a word is a stop word of the page iff it is an English stop word, a loaded ccTLD, or the name of a tag on that page |
| WebParse.CleanTokens | webparse.py:208-210 | clean tokens keep their order; none lower-cases to a stop word, is a punctuation substring or is empty; a token passing the test keeps every one of its occurrences, and any other token keeps none |
| WebParse.CcTldIsStopWord | webparse.py:53 | a token that lower-cases to a catalogue ccTLD with its dots removed is a stop word of every page |
| WebParse.TextCleanSplitsIntoCleanTokens | webparse.py:210-215 | when no token contains a space, splitting `text_clean` on spaces gives back the clean tokens, so `nb_tokens` counts its pieces |
| WebParse.TitleEntityCount | webparse.py:218-220 | `nb_title_entities` is the number of entity-list entries, duplicates included, whose lower-case form is a title token |
| WebParse.TitleEntityCountBounds | webparse.py:218-220 | the count is at most the list length, 0 with no title tokens, and the full length when every entity is a title token |
| WebParse.FlagKey | webparse.py:225 | an entity flag's column name has the entity's length; each space becomes "_" and every other character is lower-cased, so it contains no space |
| WebParse.ExtractPageValues | webparse.py:157-225 | the value of every feature of one page: `is_english` iff detection said "en"; `has_form`, `has_login_form` and `js_include_b64` iff the page has a matching tag; `img_count` is the number of img tags; the clean tokens are the lemmatised body tokens that pass the stop-word and punctuation test, in order, with every copy of a passing token kept; the title is `title_clean`; each entity's flag is its column name and whether its lower-case form is among the lower-cased ORG entities |
| WebParse.ExtractPage | webparse.py:157-225 | the features of one parsed page: `js_include_b64` implies `has_js`; `has_js` iff a script tag exists; `is_english` implies detection said "en"; no clean token is a stop word or a tag name of the page; title entities are bounded by the list length, and 0 when there is no title; one flag per entity |
| WebParse.BaseRow | webparse.py:159-222 | the feature dict has exactly the fixed columns, before the entity flags are added |
| WebParse.ApplyFlags | webparse.py:223-225 | adding flags adds exactly their columns, each 0 or 1, and leaves every other column alone |
| WebParse.LastFlagWins | webparse.py:223-225 | when two entities map to the same column, the later entity's flag is the value kept |
| WebParse.ToRow | webparse.py:227-230 | the appended row has the fixed, flag and `classification` columns; `classification` is the tag; flags are 0 or 1 |
| WebParse.RowFixedColumns | webparse.py:211-225 | a fixed column keeps its computed value unless an entity flag column has the same name, in which case the flag overwrites it |
| WebParse.HtmlRow | webparse.py:67-129 | `parse_html` returns exactly its nine columns |
| WebParse.HtmlRowValues | webparse.py:78-127 | `is_english` is True iff detection returned "en" and False when detection raised; `img_count` is the number of img tags; `has_form` and `has_login_form` follow the exact searches; no base64 flag without a script; `nb_tokens` counts the tokens `text_clean` joins |
| WebParse.ParseHtml | webparse.py:67-69 | `parse_html` returns a record iff the HTML parser did not raise, and the record has the nine columns |
| Corpus.HtmlFileByExtension | webparse.py:151 | names ending in ".html" or ".htm" are HTML files; the test is case-sensitive, so ".HTML" and ".Htm" are not, and neither is ".php" |
| Corpus.ProcessFile | webparse.py:156-232 | one file's block yields a row iff parsing did not raise, and the row is labelled with the tag |
| Corpus.CorpusRowCount | webparse.py:146-233 | the table has one row per file that is HTML and whose block did not raise |
| Corpus.CorpusRowsConcat | webparse.py:146-147 | the table for two runs of files is the two tables one after the other |
| Corpus.CorpusRowsLabelled | webparse.py:228-230 | every row of the table carries the tag when every block labels its row with it |
| Corpus.CorpusIgnoresNonHtml | webparse.py:151 | files not ending in ".html" or ".htm" contribute nothing to the table |
| Corpus.ParseFiles | webparse.py:144-235 | the loop appends the successful rows in walk order; the counter `c` starts at 1 and counts every HTML file, whether its block raised or not |
| Corpus.Parse | webparse.py:132-235 | `parse` returns the rows of the successful HTML files in walk order, each labelled with the tag, and the HTML-file counter |
| Corpus.ExtractAsWritten | webparse.py:160-220 | as written, `title_tokens` is taken from the page when it has a usable title and is otherwise left from the earlier file; the page is dropped iff the variable was never set and the entity list is non-empty; the title-entity count uses whatever the variable holds |
| Corpus.AsWrittenAgreesOnTitledPages | webparse.py:160-165 | on a page with a usable title, the loop as written computes the intended features and leaves that page's title tokens for the next file |
| Corpus.ProcessFileAsWritten | webparse.py:151-232 | as written, a row appears only for an HTML file, and it carries the tag |
| Corpus.CorpusRowsAsWritten | webparse.py:146-232 | the table as written has at most one row per HTML file, and every row carries the tag |
| Corpus.ParseThreaded | webparse.py:144-235 | the loop with a variable carried from file to file appends, in walk order, the row of each HTML file whose block completes; `c` starts at 1 and counts every HTML file |
| Corpus.ThreadedIsAsWritten | webparse.py:146-232 | that loop, with `title_tokens` as the carried variable, builds the table as written |
| Corpus.ParseAsWritten | webparse.py:132-235 | `parse` as written returns the table as written, with at most one row per HTML file, each labelled with the tag, and the HTML-file counter |
| Corpus.AsWrittenFileAgrees | webparse.py:156-232 | for one file whose page has a usable title, the block as written adds the same row as the corrected block |
| Corpus.AsWrittenAgreesWhenAllTitled | webparse.py:160-220 | when every page has a title, the table as written equals the intended table |
| Corpus.StaleTitleTokensCounterexample | webparse.py:218-220 | after a page titled "PayPal", a page without a title is credited one title entity, where 0 is intended; with no earlier title the page is dropped |
| Dataset.CleanText | model.py:34-38 | no "_" survives the five replacements |
| Dataset.CleanTextOrder | model.py:37-38 | "https" is removed before "http", so "https_x" becomes " x"; deleting "http" before "https" turns "https_x" into "s_x" |
| Dataset.CleanRow | model.py:34-38 | cleaning a row keeps its columns and changes no column but `text_clean` |
| Dataset.Clean | model.py:21-38 | the result keeps the columns and at most the input's rows; it fails with KeyError on `nb_tokens` iff that column is missing; it fails iff `nb_tokens`, `classification` or `text_clean` is missing or a text cell reaches the `>=` comparison |
| Dataset.SelectedIsOneFilter | model.py:26-31 | the three filters in sequence select the same rows as one filter on their conjunction; the English test applies only when the column exists |
| Dataset.CleanKeepsOnlyQualifyingRows | model.py:26-38 | every kept row has at least 10 tokens and the label "benign" or "malicious", is English when the column exists, and has no "_" in `text_clean` |
| Dataset.CleanIsMapOfFilter | model.py:26-38 | the cleaned table is the qualifying rows, cleaned, in input order; a qualifying row is kept as many times as it occurs in the input, and any other row not at all |
| Dataset.CleanKeepsEveryQualifyingRow | model.py:26-38 | every input row passing the three filters appears in the output, cleaned |
| Dataset.CleanPreservesOrderAndOtherColumns | model.py:26-38 | apart from `text_clean`, the output rows are a subsequence of the input rows, in their original order |
| Dataset.CustomStopWords | model.py:44-48 | as Python reads the literal, the list has 21 entries |
| Dataset.CustomStopWordsJoinTrPx | model.py:44-45 | as written, "trpx" is a stop word, while "tr" and "px" are not |
| Dataset.CustomStopWordsIntended | model.py:44-48 | the list as laid out has 22 entries |
| Dataset.CustomStopWordsIntendedSplitsTrPx | model.py:44-48 | the intended list has "tr" and "px", not "trpx", plus every other word of the written list |

## Left out

- BeautifulSoup, `nltk.word_tokenize`, the WordNet lemmatizer, `langdetect`
  and spaCy are not interpreted. They are the fields of `Nlp.Library`, and
  the model fixes only where their results are used.
- `soup.get_text()` and the `.string` of a tag are inputs (`Document.text`,
  `Element.str`). How HTML becomes a tree is not modelled.
- File and network I/O are not modelled. This covers `os.walk`, reading the
  files with `errors='ignore'`, loading `entities.json` and `cctlds.json`
  (the catalogues are given as sequences), `nltk.download`, `to_csv`,
  `read_csv`, `logging`, `print`, and the progress message every 1000 files.
- Only the HTML parser's exception is modelled on the per-file path. Other
  library exceptions inside the `try` also drop the file; the one that
  matters for this model's contracts, the unbound `title_tokens`, is
  modelled in `Corpus.ExtractAsWritten`.
- Text.ToLower: lower-cases ASCII letters only. Python's `str.lower` also
  lower-cases other scripts and can change the length: "İ" becomes two
  characters, and the Kelvin sign becomes ASCII "k". The title is lower-cased
  before non-printable characters are removed (webparse.py:161), so Python
  turns the title "İstanbul" into "istanbul", while `WebParse.TitleInput`
  gives "stanbul". Entity names with non-ASCII letters (webparse.py:45, 225)
  also get different values and flag column names. The body text is filtered
  to printable ASCII before it is lower-cased, so there the model is exact.
- pandas is modelled on its observable effect: rows as maps from column to
  cell, `== True` accepting 1 and True, NaN comparing false, and a
  `TypeError` when a text cell reaches `>=`. Type inference on `read_csv`,
  floats, and the `AttributeError` from `.str` on a column with no text at
  all are not modelled.
- `df.append` no longer exists in pandas 2. The model treats it as the
  append it was.
- `parse_html` computes the list of tag names and never uses it, so it has no
  counterpart here.
- The pycaret setup, the LDA model, `assign_model`, the plotting code and
  the web application (`app.py`) are outside the modelled core. The number
  of topics (14) is not modelled.
- Corpus.ProcessFile: models the block with the `title_tokens` defect
  corrected (see Findings). A page without a usable title counts 0 title
  entities and is not dropped. The block as written is
  `Corpus.ProcessFileAsWritten`.
- Corpus.Parse: returns the table built with the corrected block. The loop
  as written is `Corpus.ParseAsWritten`. The two agree when every page has a
  usable title (`Corpus.AsWrittenAgreesWhenAllTitled`).
- WebParse.TitleRaw: the split round trip is stated only when no title
  token contains a space. The tokenizer is not interpreted, and a token with
  a space would split into several pieces.
- WebParse.TitleClean: as for `WebParse.TitleRaw`, the round trip is stated
  only when no lemma contains a space.
- Dataset.Clean: the function's own contract states the shape of the result
  and when it fails. The row-level properties are stated by the lemmas
  `Dataset.CleanKeepsOnlyQualifyingRows`,
  `Dataset.CleanIsMapOfFilter`, `Dataset.CleanKeepsEveryQualifyingRow` and
  `Dataset.CleanPreservesOrderAndOtherColumns`.

## Findings

| source | as written | input that shows it | evidently intended | confidence | as-written member | corrected member |
|---|---|---|---|---|---|---|
| webparse.py:160-165, 218-220 | `title_tokens` is assigned only when the page has a title, but is read for every page in the entity loop. It keeps the value from an earlier file, or is unbound and raises, which drops the file | a page titled "PayPal" and then a page without a title, with "paypal" in the entity list: the second page gets `nb_title_entities` = 1. With no titled page before it, the untitled page is dropped | a page without a title counts 0 title entities | not executed | Corpus.ExtractAsWritten (Corpus.StaleTitleTokensCounterexample) | WebParse.ExtractPage (WebParse.TitleEntityCountBounds, Corpus.AsWrittenAgreesWhenAllTitled) |
| model.py:44-45 | no comma after "tr", so Python joins "tr" "px" into "trpx" | the list has 21 entries; "tr" and "px" are not stop words, and "trpx" is | "tr" and "px" as two separate stop words, 22 entries | not executed | Dataset.CustomStopWords (Dataset.CustomStopWordsJoinTrPx) | Dataset.CustomStopWordsIntended (Dataset.CustomStopWordsIntendedSplitsTrPx) |

=== FILE: corpus.dfy ===
/** `WebpageParser.parse`: walk the files, extract the features of every HTML
    file, and collect one labelled row per file that was processed without an
    exception. The directory walk is given as the sequence of files it yields. */
module Corpus {
  import opened Wrappers
  import opened Seqs
  import opened Text
  import opened Dom
  import opened Nlp
  import opened Table
  import opened WebParse

  datatype SourceFile = SourceFile(name: string, content: string)

  /** `file.endswith('.html') or file.endswith('.htm')`; the test is case-sensitive. */
  predicate IsHtmlFile(f: SourceFile) {
    EndsWith(f.name, ".html") || EndsWith(f.name, ".htm")
  }

  /** Which names the walk treats as HTML: the two lower-case extensions, and
      no other spelling of them. */
  lemma HtmlFileByExtension(stem: string, content: string)
    ensures IsHtmlFile(SourceFile(stem + ".html", content))
    ensures IsHtmlFile(SourceFile(stem + ".htm", content))
    ensures !IsHtmlFile(SourceFile(stem + ".HTML", content))
    ensures !IsHtmlFile(SourceFile(stem + ".Htm", content))
    ensures !IsHtmlFile(SourceFile(stem + ".php", content))
  {
    var n := |stem|;
    assert (stem + ".html")[n + 1..] == "html";
    assert (stem + ".htm")[n + 1..] == "htm";
    var upper := stem + ".HTML";
    assert upper[|upper| - 1] == 'L';
    assert upper[|upper| - 4] == 'H';
    var mixed := stem + ".Htm";
    assert mixed[|mixed| - 3] == 'H';
    assert mixed[|mixed| - 1] == 'm';
    var php := stem + ".php";
    assert php[|php| - 1] == 'p';
  }

  /** The `try` block for one HTML file: None when it raises. */
  function ProcessFile(f: SourceFile, tag: string, refs: References, lib: Library): (r: Option<Row>)
    ensures r.Some? <==> lib.parse(f.content).Some?
    ensures r.Some? ==> "classification" in r.value && r.value["classification"] == Str(tag)
  {
    match lib.parse(f.content)
    case None => None
    case Some(d) => Some(ToRow(ExtractPage(d, refs, lib), tag))
  }

  function Processor(tag: string, refs: References, lib: Library): SourceFile -> Option<Row> {
    f => ProcessFile(f, tag, refs, lib)
  }

  /** The files that contribute a row. */
  function Emits(process: SourceFile -> Option<Row>): SourceFile -> bool {
    f => IsHtmlFile(f) && process(f).Some?
  }

  /** What one file adds to the table. */
  function FileRows(f: SourceFile, process: SourceFile -> Option<Row>): seq<Row> {
    if IsHtmlFile(f) && process(f).Some? then [process(f).value] else []
  }

  /** The table after all files, in walk order, for a given per-file block. */
  function CorpusRows(files: seq<SourceFile>, process: SourceFile -> Option<Row>): seq<Row>
    decreases |files|
  {
    if |files| == 0 then []
    else FileRows(files[0], process) + CorpusRows(files[1..], process)
  }

  lemma {:induction false} CorpusRowsConcat(a: seq<SourceFile>, b: seq<SourceFile>, process: SourceFile -> Option<Row>)
    ensures CorpusRows(a + b, process) == CorpusRows(a, process) + CorpusRows(b, process)
    decreases |a|
  {
    if |a| == 0 {
      assert a + b == b;
    } else {
      assert (a + b)[1..] == a[1..] + b;
      CorpusRowsConcat(a[1..], b, process);
    }
  }

  /** One row per file that is HTML and whose block did not raise. */
  lemma {:induction false} CorpusRowCount(files: seq<SourceFile>, process: SourceFile -> Option<Row>)
    ensures |CorpusRows(files, process)| == |Filter(Emits(process), files)|
    decreases |files|
  {
    if |files| > 0 {
      CorpusRowCount(files[1..], process);
    }
  }

  /** Rows come only from successful blocks, so when every successful block
      labels its row with `tag`, every row of the table carries it. */
  lemma {:induction false} CorpusRowsLabelled(files: seq<SourceFile>, process: SourceFile -> Option<Row>, tag: string)
    requires forall f :: process(f).Some? ==> "classification" in process(f).value && process(f).value["classification"] == Str(tag)
    ensures forall r :: r in CorpusRows(files, process) ==> "classification" in r && r["classification"] == Str(tag)
    decreases |files|
  {
    if |files| > 0 {
      CorpusRowsLabelled(files[1..], process, tag);
    }
  }

  /** Files that are not HTML contribute nothing: the table is the one built
      from the HTML files alone. */
  lemma {:induction false} CorpusIgnoresNonHtml(files: seq<SourceFile>, process: SourceFile -> Option<Row>)
    ensures CorpusRows(files, process) == CorpusRows(Filter(IsHtmlFile, files), process)
    decreases |files|
  {
    if |files| > 0 {
      CorpusIgnoresNonHtml(files[1..], process);
      if IsHtmlFile(files[0]) {
        assert Filter(IsHtmlFile, files) == [files[0]] + Filter(IsHtmlFile, files[1..]);
        assert ([files[0]] + Filter(IsHtmlFile, files[1..]))[1..] == Filter(IsHtmlFile, files[1..]);
      }
    }
  }

  /** The loop of `parse` (webparse.py:144-235) around a given per-file
      block. `c` starts at 1 and advances once per HTML file, whether its
      block succeeded or raised; a row is appended only on success. */
  method ParseFiles(files: seq<SourceFile>, process: SourceFile -> Option<Row>) returns (rows: seq<Row>, c: int)
    ensures rows == CorpusRows(files, process)
    ensures |rows| == |Filter(Emits(process), files)|
    ensures c == 1 + |Filter(IsHtmlFile, files)|
  {
    rows := [];
    c := 1;
    var i := 0;
    while i < |files|
      invariant 0 <= i <= |files|
      invariant rows == CorpusRows(files[..i], process)
      invariant c == 1 + |Filter(IsHtmlFile, files[..i])|
    {
      var f := files[i];
      CorpusStep(files, i, process);
      if IsHtmlFile(f) {
        var row := process(f);
        if row.Some? {
          rows := rows + [row.value];
        }
        c := c + 1;
      }
      i := i + 1;
    }
    assert files[..i] == files;
    CorpusRowCount(files, process);
  }

  /** One more file extends the table by that file's rows and the HTML count
      by one exactly when it is an HTML file. */
  lemma CorpusStep(files: seq<SourceFile>, i: nat, process: SourceFile -> Option<Row>)
    requires i < |files|
    ensures CorpusRows(files[..i + 1], process) == CorpusRows(files[..i], process) + FileRows(files[i], process)
    ensures |Filter(IsHtmlFile, files[..i + 1])| == |Filter(IsHtmlFile, files[..i])| + (if IsHtmlFile(files[i]) then 1 else 0)
  {
    var f := files[i];
    assert files[..i + 1] == files[..i] + [f];
    assert CorpusRows([f], process) == FileRows(f, process) by {
      assert [f][1..] == [];
    }
    CorpusRowsConcat(files[..i], [f], process);
    HtmlCountStep(files, i);
  }

  /** One more file raises the HTML count by one exactly when it is HTML. */
  lemma HtmlCountStep(files: seq<SourceFile>, i: nat)
    requires i < |files|
    ensures |Filter(IsHtmlFile, files[..i + 1])| == |Filter(IsHtmlFile, files[..i])| + (if IsHtmlFile(files[i]) then 1 else 0)
  {
    assert files[..i + 1] == files[..i] + [files[i]];
    FilterConcat(IsHtmlFile, files[..i], [files[i]]);
  }

  /** `parse(_tag)`: the loop with the feature extraction of this module as
      its block. Every row it collects is labelled `tag`. */
  method Parse(files: seq<SourceFile>, tag: string, refs: References, lib: Library) returns (rows: seq<Row>, c: int)
    ensures rows == CorpusRows(files, Processor(tag, refs, lib))
    ensures |rows| == |Filter(Emits(Processor(tag, refs, lib)), files)|
    ensures forall r :: r in rows ==> "classification" in r && r["classification"] == Str(tag)
    ensures c == 1 + |Filter(IsHtmlFile, files)|
  {
    rows, c := ParseFiles(files, Processor(tag, refs, lib));
    ProcessorLabels(tag, refs, lib);
    CorpusRowsLabelled(files, Processor(tag, refs, lib), tag);
  }

  lemma ProcessorLabels(tag: string, refs: References, lib: Library)
    ensures var process := Processor(tag, refs, lib);
      forall f :: process(f).Some? ==> "classification" in process(f).value && process(f).value["classification"] == Str(tag)
  {
  }

  // ---------------------------------------------------------------- `title_tokens` as written

  /** The per-page features as the loop really computes them. `title_tokens`
      is a local of `parse`, assigned only when the page has a title with a
      `.string`; otherwise it still holds the value from an earlier file
      (`scope`), or is unbound, and then the first read of it in the entity
      loop raises and the file is dropped. Returns the features (None when the
      block raises) and the variable's value for the next file. */
  function ExtractAsWritten(d: Document, scope: Option<seq<string>>, refs: References, lib: Library)
    : (r: (Option<PageFeatures>, Option<seq<string>>))
    ensures r.1 == if TitleTokens(d, lib).Some? then TitleTokens(d, lib) else scope
    ensures r.0.None? <==> TitleTokens(d, lib).None? && scope.None? && |refs.entities| > 0
    ensures r.0.Some? ==> r.0.value.nbTitleEntities == TitleEntityCount(refs.entities, r.1.GetOr([]))
  {
    var scope' := if TitleTokens(d, lib).Some? then TitleTokens(d, lib) else scope;
    if scope'.None? && |refs.entities| > 0 then (None, scope')
    else
      var f := ExtractPage(d, refs, lib);
      (Some(f.(nbTitleEntities := TitleEntityCount(refs.entities, scope'.GetOr([])))), scope')
  }

  /** On a page with a usable title the as-written loop computes what
      ExtractPage computes, whatever earlier files left behind. */
  lemma AsWrittenAgreesOnTitledPages(d: Document, scope: Option<seq<string>>, refs: References, lib: Library)
    requires TitleTokens(d, lib).Some?
    ensures ExtractAsWritten(d, scope, refs, lib).0 == Some(ExtractPage(d, refs, lib))
    ensures ExtractAsWritten(d, scope, refs, lib).1 == TitleTokens(d, lib)
  {
  }

  function ProcessFileAsWritten(f: SourceFile, scope: Option<seq<string>>, tag: string, refs: References, lib: Library)
    : (r: (Option<Row>, Option<seq<string>>))
    ensures r.0.Some? ==> IsHtmlFile(f) && "classification" in r.0.value && r.0.value["classification"] == Str(tag)
  {
    if !IsHtmlFile(f) then (None, scope)
    else match lib.parse(f.content)
      case None => (None, scope)
      case Some(d) =>
        var (features, scope') := ExtractAsWritten(d, scope, refs, lib);
        (if features.Some? then Some(ToRow(features.value, tag)) else None, scope')
  }

  /** The table as the loop really builds it, threading `title_tokens`
      from file to file. */
  function CorpusRowsAsWritten(files: seq<SourceFile>, scope: Option<seq<string>>, tag: string, refs: References, lib: Library)
    : (r: seq<Row>)
    ensures |r| <= |Filter(IsHtmlFile, files)|
    ensures forall row :: row in r ==> "classification" in row && row["classification"] == Str(tag)
    decreases |files|
  {
    if |files| == 0 then []
    else
      var (row, scope') := ProcessFileAsWritten(files[0], scope, tag, refs, lib);
      (if row.Some? then [row.value] else []) + CorpusRowsAsWritten(files[1..], scope', tag, refs, lib)
  }

  /** The table built by the loop of `parse` around a per-file block that
      also reads and updates a variable carried from file to file (`state`);
      only HTML files reach the block. */
  function ThreadedRows<S>(files: seq<SourceFile>, block: (SourceFile, S) -> (Option<Row>, S), state: S): seq<Row>
    decreases |files|
  {
    if |files| == 0 then []
    else if !IsHtmlFile(files[0]) then ThreadedRows(files[1..], block, state)
    else
      var step := block(files[0], state);
      (if step.0.Some? then [step.0.value] else []) + ThreadedRows(files[1..], block, step.1)
  }

  /** The loop of `parse` (webparse.py:144-235) around a block that carries a
      variable across files: `c` advances once per HTML file, and a row is
      appended only when the block for that file completes. */
  method ParseThreaded<S>(files: seq<SourceFile>, block: (SourceFile, S) -> (Option<Row>, S), init: S) returns (rows: seq<Row>, c: int)
    ensures rows == ThreadedRows(files, block, init)
    ensures c == 1 + |Filter(IsHtmlFile, files)|
  {
    rows := [];
    c := 1;
    var state := init;
    var i := 0;
    while i < |files|
      invariant 0 <= i <= |files|
      invariant rows + ThreadedRows(files[i..], block, state) == ThreadedRows(files, block, init)
      invariant c == 1 + CountHtml(files[..i])
    {
      CountHtmlStep(files, i);
      ThreadedStep(files, i, block, state);
      var f := files[i];
      if IsHtmlFile(f) {
        var step := block(f, state);
        var added := if step.0.Some? then [step.0.value] else [];
        AppendStep(rows, added, ThreadedRows(files[i + 1..], block, step.1), ThreadedRows(files, block, init));
        rows := rows + added;
        state := step.1;
        c := c + 1;
      }
      i := i + 1;
    }
    assert files[i..] == [];
    assert files[..i] == files;
    CountHtmlIsFilter(files);
  }

  /** The number of HTML files, counted from the end back, the way the loop
      meets them one at a time. */
  function CountHtml(files: seq<SourceFile>): nat
    decreases |files|
  {
    if |files| == 0 then 0 else CountHtml(files[..|files| - 1]) + (if IsHtmlFile(files[|files| - 1]) then 1 else 0)
  }

  lemma CountHtmlStep(files: seq<SourceFile>, i: nat)
    requires i < |files|
    ensures CountHtml(files[..i + 1]) == CountHtml(files[..i]) + (if IsHtmlFile(files[i]) then 1 else 0)
  {
    assert files[..i + 1][..i] == files[..i];
  }

  lemma {:induction false} CountHtmlIsFilter(files: seq<SourceFile>)
    ensures CountHtml(files) == |Filter(IsHtmlFile, files)|
    decreases |files|
  {
    if |files| > 0 {
      var n := |files| - 1;
      CountHtmlIsFilter(files[..n]);
      assert files == files[..n] + [files[n]];
      FilterConcat(IsHtmlFile, files[..n], [files[n]]);
    }
  }

  /** Appending a file's rows keeps "rows so far + rows still to come" fixed. */
  lemma AppendStep<T>(rows: seq<T>, added: seq<T>, rest: seq<T>, total: seq<T>)
    requires rows + (added + rest) == total
    ensures (rows + added) + rest == total
  {
    assert rows + (added + rest) == (rows + added) + rest;
  }

  /** One file of the threaded loop: a non-HTML file adds nothing and leaves the
      carried variable alone; an HTML file adds its row, if any, and hands on
      the block's new value. */
  lemma ThreadedStep<S>(files: seq<SourceFile>, i: nat, block: (SourceFile, S) -> (Option<Row>, S), state: S)
    requires i < |files|
    ensures !IsHtmlFile(files[i]) ==> ThreadedRows(files[i..], block, state) == ThreadedRows(files[i + 1..], block, state)
    ensures IsHtmlFile(files[i]) ==>
      var step := block(files[i], state);
      ThreadedRows(files[i..], block, state)
        == (if step.0.Some? then [step.0.value] else []) + ThreadedRows(files[i + 1..], block, step.1)
  {
    assert files[i..][0] == files[i];
    assert files[i..][1..] == files[i + 1..];
  }

  /** The block of `parse` as written, with `title_tokens` as its carried variable. */
  function AsWrittenBlock(tag: string, refs: References, lib: Library): (SourceFile, Option<seq<string>>) -> (Option<Row>, Option<seq<string>>) {
    (f, scope) => ProcessFileAsWritten(f, scope, tag, refs, lib)
  }

  /** The generic loop around the as-written block builds the as-written table. */
  lemma {:induction false} ThreadedIsAsWritten(files: seq<SourceFile>, scope: Option<seq<string>>, tag: string, refs: References, lib: Library)
    ensures ThreadedRows(files, AsWrittenBlock(tag, refs, lib), scope) == CorpusRowsAsWritten(files, scope, tag, refs, lib)
    decreases |files|
  {
    if |files| > 0 {
      var step := ProcessFileAsWritten(files[0], scope, tag, refs, lib);
      ThreadedIsAsWritten(files[1..], step.1, tag, refs, lib);
    }
  }

  /** `parse(_tag)` exactly as written: the rows are the as-written table,
      every one of them from an HTML file and labelled `tag`. */
  method ParseAsWritten(files: seq<SourceFile>, tag: string, refs: References, lib: Library) returns (rows: seq<Row>, c: int)
    ensures rows == CorpusRowsAsWritten(files, None, tag, refs, lib)
    ensures |rows| <= |Filter(IsHtmlFile, files)|
    ensures forall r :: r in rows ==> "classification" in r && r["classification"] == Str(tag)
    ensures c == 1 + |Filter(IsHtmlFile, files)|
  {
    rows, c := ParseThreaded(files, AsWrittenBlock(tag, refs, lib), None);
    ThreadedIsAsWritten(files, None, tag, refs, lib);
  }

  /** Every HTML file that parses has a usable title. */
  ghost predicate AllTitled(files: seq<SourceFile>, lib: Library) {
    forall f, d :: f in files && IsHtmlFile(f) && lib.parse(f.content) == Some(d) ==> TitleTokens(d, lib).Some?
  }

  /** When every page has a title the stale variable is never read, and the
      as-written table is the intended one. */
  lemma {:induction false} AsWrittenAgreesWhenAllTitled(files: seq<SourceFile>, scope: Option<seq<string>>, tag: string, refs: References, lib: Library)
    requires AllTitled(files, lib)
    ensures CorpusRowsAsWritten(files, scope, tag, refs, lib) == CorpusRows(files, Processor(tag, refs, lib))
    decreases |files|
  {
    if |files| > 0 {
      var f := files[0];
      var step := ProcessFileAsWritten(f, scope, tag, refs, lib);
      AsWrittenFileAgrees(f, scope, tag, refs, lib);
      assert AllTitled(files[1..], lib);
      AsWrittenAgreesWhenAllTitled(files[1..], step.1, tag, refs, lib);
    }
  }

  /** One titled file: the as-written block adds the row the intended block adds. */
  lemma AsWrittenFileAgrees(f: SourceFile, scope: Option<seq<string>>, tag: string, refs: References, lib: Library)
    requires forall d :: IsHtmlFile(f) && lib.parse(f.content) == Some(d) ==> TitleTokens(d, lib).Some?
    ensures var row := ProcessFileAsWritten(f, scope, tag, refs, lib).0;
      (if row.Some? then [row.value] else []) == FileRows(f, Processor(tag, refs, lib))
  {
    if IsHtmlFile(f) && lib.parse(f.content).Some? {
      AsWrittenAgreesOnTitledPages(lib.parse(f.content).value, scope, refs, lib);
    }
  }

  /** The counterexample: a page titled "PayPal" followed by a page without a
      title, with "paypal" in the entity list. */
  function TitledPage(): Document {
    Document([Element("title", map[], Some("PayPal"))], "")
  }

  function UntitledPage(): Document {
    Document([], "")
  }

  function ExampleLibrary(): Library {
    Library(
      html => if html == "titled" then Some(TitledPage()) else Some(UntitledPage()),
      s => ["paypal"],
      t => t,
      s => None,
      s => [])
  }

  function ExampleReferences(): References {
    References({}, [], ["paypal"])
  }

  lemma ExamplePagesTitleTokens()
    ensures TitleTokens(TitledPage(), ExampleLibrary()) == Some(["paypal"])
    ensures TitleTokens(UntitledPage(), ExampleLibrary()).None?
  {
    assert Title(UntitledPage()).None?;
    assert Title(TitledPage()) == Some(Element("title", map[], Some("PayPal")));
  }

  lemma PaypalIsTitleEntity()
    ensures TitleEntityCount(["paypal"], ["paypal"]) == 1
  {
    assert forall c :: c in "paypal" ==> !IsUpper(c);
    ToLowerFixesLower("paypal");
    assert Filter(InTokens(["paypal"]), ["paypal"]) == ["paypal"];
  }

  /** After the titled page, the untitled page is credited with one title
      entity although it has no title; the intended count is 0. Had no titled
      page come first, the untitled page would raise and be dropped. */
  lemma StaleTitleTokensCounterexample()
    ensures var lib := ExampleLibrary();
      var refs := ExampleReferences();
      var left := ExtractAsWritten(TitledPage(), None, refs, lib).1;
      && left == Some(["paypal"])
      && ExtractAsWritten(UntitledPage(), left, refs, lib).0.Some?
      && ExtractAsWritten(UntitledPage(), left, refs, lib).0.value.nbTitleEntities == 1
      && ExtractPage(UntitledPage(), refs, lib).nbTitleEntities == 0
      && ExtractAsWritten(UntitledPage(), None, refs, lib).0.None?
  {
    ExamplePagesTitleTokens();
    PaypalIsTitleEntity();
  }
}

=== FILE: dataset.dfy ===
/** The data preparation at the start of `MaliciousWebpageDataset.__init__`:
    three row filters on the feature table read back from the CSV, a fixed
    chain of literal replacements on `text_clean`, and the custom stop-word
    list handed to the topic model. */
module Dataset {
  import opened Wrappers
  import opened Seqs
  import opened Text
  import opened Table

  const EnglishOnly: bool := true
  const MinTokens: int := 10

  /** A DataFrame: its columns, and its rows, each with exactly those columns. */
  datatype Frame = Frame(columns: set<string>, rows: seq<Row>)

  predicate WellFormed(f: Frame) {
    forall r :: r in f.rows ==> r.Keys == f.columns
  }

  /** Selecting a missing column raises KeyError; comparing a text cell with
      an integer raises TypeError. */
  datatype PandasError = KeyError(column: string) | TypeError(column: string)

  /** `cell == True`, as pandas compares: 1 and True are equal to True. */
  predicate EqualsTrue(c: Cell) {
    c == Num(1) || c == Flag(true)
  }

  /** `cell >= n` for a cell that is not text: NaN compares false. */
  predicate AtLeast(c: Cell, n: int) {
    match c
    case Num(v) => v >= n
    case Flag(b) => BoolToInt(b) >= n
    case _ => false
  }

  predicate IsKnownLabel(c: Cell) {
    c == Str("benign") || c == Str("malicious")
  }

  predicate IsEnglishRow(r: Row) {
    "is_english" in r && EqualsTrue(r["is_english"])
  }

  predicate HasEnoughTokens(r: Row) {
    "nb_tokens" in r && AtLeast(r["nb_tokens"], MinTokens)
  }

  predicate IsLabelledRow(r: Row) {
    "classification" in r && IsKnownLabel(r["classification"])
  }

  /** The five `str.replace(..., regex=True)` calls in order. None of the
      patterns holds a regex metacharacter, so each is a literal,
      left-to-right, non-overlapping replacement. */
  function CleanText(s: string): (r: string)
    ensures '_' !in r
  {
    var s1 := ReplaceAll(s, "_", " ");
    var s2 := ReplaceAll(s1, "//", " ");
    var s3 := ReplaceAll(s2, "javascript", "");
    var s4 := ReplaceAll(s3, "https", "");
    var s5 := ReplaceAll(s4, "http", "");
    ReplaceAllRemovesChar(s, "_", " ");
    NoCharAfterReplace(s1, "//", " ", '_');
    NoCharAfterReplace(s2, "javascript", "", '_');
    NoCharAfterReplace(s3, "https", "", '_');
    NoCharAfterReplace(s4, "http", "", '_');
    s5
  }

  /** A replacement never introduces a character that neither the input nor
      the replacement holds. */
  lemma NoCharAfterReplace(s: string, pat: string, rep: string, c: char)
    requires |pat| > 0 && c !in s && c !in rep
    ensures c !in ReplaceAll(s, pat, rep)
  {
    if c in ReplaceAll(s, pat, rep) {
      ReplaceAllCharacters(s, pat, rep, c);
    }
  }

  lemma UnderscoreBecomesSpace()
    ensures ReplaceAll("https_x", "_", " ") == "https x"
  {
    assert "https_x"[1..] == "ttps_x";
    assert "ttps_x"[1..] == "tps_x";
    assert "tps_x"[1..] == "ps_x";
    assert "ps_x"[1..] == "s_x";
    assert "s_x"[1..] == "_x";
    assert "_x"[1..] == "x";
    assert "https_x"[..1] == "h" && "ttps_x"[..1] == "t" && "tps_x"[..1] == "t";
    assert "ps_x"[..1] == "p" && "s_x"[..1] == "s" && "_x"[..1] == "_";
    assert ReplaceAll("x", "_", " ") == "x" by { assert "x"[..1] == "x"; assert "x"[1..] == ""; }
  }

  lemma NoDoubleSlash()
    ensures ReplaceAll("https x", "//", " ") == "https x"
  {
    assert !IsSubstring("//", "https x") by {
      forall i | 0 <= i <= |"https x"| - 2 ensures !OccursAt("//", "https x", i) {
        assert "https x"[i] != '/';
      }
    }
    ReplaceAllWithoutOccurrence("https x", "//", " ");
  }

  lemma SchemeRemovedWhole()
    ensures ReplaceAll("https x", "javascript", "") == "https x"
    ensures ReplaceAll("https x", "https", "") == " x"
    ensures ReplaceAll(" x", "http", "") == " x"
  {
    assert "https x"[..5] == "https";
    assert "https x"[5..] == " x";
  }

  lemma SchemeRemovedInOtherOrder()
    ensures ReplaceAll(ReplaceAll("https_x", "http", ""), "https", "") == "s_x"
  {
    assert ReplaceAll("https_x", "http", "") == "s_x" by {
      assert "https_x"[..4] == "http";
      assert "https_x"[4..] == "s_x";
    }
    assert ReplaceAll("s_x", "https", "") == "s_x";
  }

  /** "https" goes before "http" is looked for, so a URL scheme disappears
      whole instead of leaving an "s" behind; and the "_" has become a space. */
  lemma CleanTextOrder()
    ensures CleanText("https_x") == " x"
    ensures ReplaceAll(ReplaceAll("https_x", "http", ""), "https", "") == "s_x"
  {
    UnderscoreBecomesSpace();
    NoDoubleSlash();
    SchemeRemovedWhole();
    SchemeRemovedInOtherOrder();
  }

  /** `str.replace` on a column: text cells are rewritten, and a cell that is
      not text becomes NaN. */
  function CleanCell(c: Cell): Cell {
    if c.Str? then Str(CleanText(c.s)) else NaN
  }

  function CleanRow(r: Row): (r': Row)
    ensures r'.Keys == r.Keys
    ensures forall k :: k in r && k != "text_clean" ==> r'[k] == r[k]
  {
    if "text_clean" in r then r["text_clean" := CleanCell(r["text_clean"])] else r
  }

  /** The rows that survive all three filters. */
  predicate KeepRow(columns: set<string>, r: Row) {
    ("is_english" in columns ==> IsEnglishRow(r)) && HasEnoughTokens(r) && IsLabelledRow(r)
  }

  function Keeps(columns: set<string>): Row -> bool {
    r => KeepRow(columns, r)
  }

  function EnglishFilter(f: Frame): seq<Row> {
    if EnglishOnly && "is_english" in f.columns then Filter(IsEnglishRow, f.rows) else f.rows
  }

  /** The rows the three filters select, in order. */
  function Selected(f: Frame): seq<Row> {
    Filter(IsLabelledRow, Filter(HasEnoughTokens, EnglishFilter(f)))
  }

  /** A text cell in `nb_tokens` among the rows that reach the comparison. */
  predicate TextTokenCount(f: Frame) {
    exists row: Row :: row in EnglishFilter(f) && "nb_tokens" in row && row["nb_tokens"].Str?
  }

  /** Lines 21-38 of model.py, on the frame read from the CSV. */
  function Clean(f: Frame): (r: Result<Frame, PandasError>)
    requires WellFormed(f)
    ensures r.Ok? ==> WellFormed(r.value) && r.value.columns == f.columns && |r.value.rows| <= |f.rows|
    ensures r == Err(KeyError("nb_tokens")) <==> "nb_tokens" !in f.columns
    ensures r.Err? <==> || "nb_tokens" !in f.columns
                        || "classification" !in f.columns
                        || "text_clean" !in f.columns
                        || TextTokenCount(f)
  {
    if "nb_tokens" !in f.columns then Err(KeyError("nb_tokens"))
    else if TextTokenCount(f) then Err(TypeError("nb_tokens"))
    else if "classification" !in f.columns then Err(KeyError("classification"))
    else if "text_clean" !in f.columns then Err(KeyError("text_clean"))
    else
      var selected := Selected(f);
      assert |selected| <= |f.rows|;
      assert forall row: Row :: row in selected ==> row in f.rows;
      Ok(Frame(f.columns, Map(CleanRow, selected)))
  }

  /** The three filters in a row select what one filter on their conjunction
      selects; the `is_english` test takes part only when the column exists. */
  lemma SelectedIsOneFilter(f: Frame)
    ensures Selected(f) == Filter(Keeps(f.columns), f.rows)
  {
    if "is_english" in f.columns {
      var both := (r: Row) => IsEnglishRow(r) && HasEnoughTokens(r);
      FilterFuse(IsEnglishRow, HasEnoughTokens, both, f.rows);
      FilterFuse(both, IsLabelledRow, Keeps(f.columns), f.rows);
    } else {
      var both := (r: Row) => HasEnoughTokens(r) && IsLabelledRow(r);
      FilterFuse(HasEnoughTokens, IsLabelledRow, Keeps(f.columns), f.rows);
    }
  }

  /** Every kept row has at least `MinTokens` tokens, a known label, is
      English when the column exists, and has no "_" left in `text_clean`. */
  lemma CleanKeepsOnlyQualifyingRows(f: Frame)
    requires WellFormed(f)
    requires Clean(f).Ok?
    ensures forall row: Row :: row in Clean(f).value.rows ==>
      && AtLeast(row["nb_tokens"], MinTokens)
      && IsKnownLabel(row["classification"])
      && ("is_english" in f.columns ==> EqualsTrue(row["is_english"]))
      && !(row["text_clean"].Str? && '_' in row["text_clean"].s)
  {
    SelectedIsOneFilter(f);
    var kept := Filter(Keeps(f.columns), f.rows);
    forall row: Row | row in Clean(f).value.rows
      ensures AtLeast(row["nb_tokens"], MinTokens)
      ensures IsKnownLabel(row["classification"])
      ensures "is_english" in f.columns ==> EqualsTrue(row["is_english"])
      ensures !(row["text_clean"].Str? && '_' in row["text_clean"].s)
    {
      var i :| 0 <= i < |kept| && row == CleanRow(kept[i]);
      assert kept[i] in kept;
      CleanedRowQualifies(f.columns, kept[i]);
    }
  }

  /** A row that passes the filters still passes them after cleaning, and its
      `text_clean` holds no "_". */
  lemma CleanedRowQualifies(columns: set<string>, row: Row)
    requires KeepRow(columns, row) && "text_clean" in row
    ensures var c := CleanRow(row);
      && AtLeast(c["nb_tokens"], MinTokens)
      && IsKnownLabel(c["classification"])
      && ("is_english" in columns ==> EqualsTrue(c["is_english"]))
      && !(c["text_clean"].Str? && '_' in c["text_clean"].s)
  {
  }

  /** No qualifying row is lost: each reappears with only `text_clean` rewritten. */
  lemma CleanKeepsEveryQualifyingRow(f: Frame)
    requires WellFormed(f)
    requires Clean(f).Ok?
    ensures forall row :: row in f.rows && KeepRow(f.columns, row) ==> CleanRow(row) in Clean(f).value.rows
  {
    SelectedIsOneFilter(f);
    var kept := Filter(Keeps(f.columns), f.rows);
    forall row | row in f.rows && KeepRow(f.columns, row)
      ensures CleanRow(row) in Clean(f).value.rows
    {
      assert row in kept;
      var i :| 0 <= i < |kept| && kept[i] == row;
      assert Clean(f).value.rows[i] == CleanRow(row);
    }
  }

  /** The cleaned table is the cleaned rows of the one filter, in order, and
      the filter keeps every copy of a qualifying row and no copy of any other
      row: a repeated row is not collapsed. */
  lemma CleanIsMapOfFilter(f: Frame)
    requires WellFormed(f)
    requires Clean(f).Ok?
    ensures Clean(f).value.rows == Map(CleanRow, Filter(Keeps(f.columns), f.rows))
    ensures forall row :: multiset(Filter(Keeps(f.columns), f.rows))[row] == if KeepRow(f.columns, row) then multiset(f.rows)[row] else 0
  {
    SelectedIsOneFilter(f);
    FilterMultiset(Keeps(f.columns), f.rows);
  }

  /** A row with its `text_clean` column removed. */
  function DropText(r: Row): Row {
    r - {"text_clean"}
  }

  /** Cleaning keeps a subsequence of the rows in their original order and
      changes no column other than `text_clean`. */
  lemma CleanPreservesOrderAndOtherColumns(f: Frame)
    requires WellFormed(f)
    requires Clean(f).Ok?
    ensures IsSubsequence(Map(DropText, Clean(f).value.rows), Map(DropText, f.rows))
  {
    var selected := Selected(f);
    assert Map(DropText, Clean(f).value.rows) == Map(DropText, selected) by {
      forall i | 0 <= i < |selected|
        ensures DropText(CleanRow(selected[i])) == DropText(selected[i])
      {
      }
    }
    SelectedIsOneFilter(f);
    MapSubsequence(DropText, selected, f.rows);
  }

  /** The custom stop words of model.py:44-48, as Python reads them: there is
      no comma after "tr", so the adjacent literals "tr" "px" are one string. */
  function CustomStopWords(): (r: seq<string>)
    ensures |r| == 21
  {
    ["com", "ca", "go", "td", "tr" + "px",
     "co", "uv", "ru",
     "mx", "also", "use",
     "wo", "may", "oo", "javascript", "www",
     "html", "id", "class", "http", "https"]
  }

  /** The list the layout evidently intends: "tr" and "px" as two entries. */
  function CustomStopWordsIntended(): (r: seq<string>)
    ensures |r| == 22
  {
    ["com", "ca", "go", "td", "tr",
     "px", "co", "uv", "ru",
     "mx", "also", "use",
     "wo", "may", "oo", "javascript", "www",
     "html", "id", "class", "http", "https"]
  }

  /** Neither "tr" nor "px" is a stop word as written: only their concatenation is. */
  lemma CustomStopWordsJoinTrPx()
    ensures "trpx" in CustomStopWords()
    ensures "tr" !in CustomStopWords() && "px" !in CustomStopWords()
  {
    var r := CustomStopWords();
    assert r[4] == "trpx";
    forall i | 0 <= i < |r| ensures r[i] != "tr" && r[i] != "px" {
      assert |r[i]| != 2 || r[i][0] !in {'t', 'p'} || (r[i] == "td");
    }
  }

  /** The intended list has both entries and every other word of the written one. */
  lemma CustomStopWordsIntendedSplitsTrPx()
    ensures "tr" in CustomStopWordsIntended() && "px" in CustomStopWordsIntended()
    ensures "trpx" !in CustomStopWordsIntended()
    ensures forall w :: w in CustomStopWords() && w != "trpx" ==> w in CustomStopWordsIntended()
  {
    var r := CustomStopWordsIntended();
    var w := CustomStopWords();
    assert r[4] == "tr" && r[5] == "px";
    forall i | 0 <= i < |r| ensures r[i] != "trpx" {
      assert |r[i]| != 4 || r[i][0] != 't';
    }
    forall i | 0 <= i < |w| && w[i] != "trpx" ensures w[i] in r {
      if i < 4 { assert w[i] == r[i]; } else { assert w[i] == r[i + 1]; }
    }
  }
}

=== FILE: dom.dfy ===
/** The parsed page as the feature rules see it. BeautifulSoup itself is not
    modelled: a parsed page is the list of its tags in document order (what
    `soup.find_all()` returns), each with its attributes and its `.string`,
    together with the page's `get_text()`. */
module Dom {
  import opened Wrappers
  import opened Seqs

  /** One tag: its name, its attributes, and its `.string` as BeautifulSoup
      reports it (None when BeautifulSoup gives None). */
  datatype Element = Element(name: string, attrs: map<string, string>, str: Option<string>)

  datatype Document = Document(elements: seq<Element>, text: string)

  function Named(name: string): Element -> bool {
    (e: Element) => e.name == name
  }

  /** `find_all(name, {key: value})` matches a tag whose attribute equals the
      value exactly. */
  predicate HasAttrValue(e: Element, key: string, value: string) {
    key in e.attrs && e.attrs[key] == value
  }

  function NamedWith(name: string, key: string, value: string): Element -> bool {
    (e: Element) => e.name == name && HasAttrValue(e, key, value)
  }

  /** `soup.find_all(name)`. */
  function FindAll(d: Document, name: string): (r: seq<Element>)
    ensures forall e :: e in r <==> e in d.elements && e.name == name
  {
    Filter(Named(name), d.elements)
  }

  /** `soup.find_all(name, {key: value})`. */
  function FindAllWith(d: Document, name: string, key: string, value: string): (r: seq<Element>)
    ensures forall e :: e in r <==> e in d.elements && e.name == name && HasAttrValue(e, key, value)
  {
    Filter(NamedWith(name, key, value), d.elements)
  }

  /** `set([tag.name for tag in soup.find_all()])`. */
  function TagNames(d: Document): set<string> {
    set e | e in d.elements :: e.name
  }

  /** `soup.title`: the first `title` tag in document order, or None. */
  function Title(d: Document): (r: Option<Element>)
    ensures r.None? <==> forall e :: e in d.elements ==> e.name != "title"
    ensures r.Some? ==> r.value in d.elements && r.value.name == "title"
    ensures r.Some? ==> exists i :: 0 <= i < |d.elements| && d.elements[i] == r.value
                          && forall j :: 0 <= j < i ==> d.elements[j].name != "title"
  {
    FirstTitle(d.elements)
  }

  function FirstTitle(es: seq<Element>): (r: Option<Element>)
    ensures r.None? <==> forall e :: e in es ==> e.name != "title"
    ensures r.Some? ==> exists i :: 0 <= i < |es| && es[i] == r.value && r.value.name == "title"
                          && forall j :: 0 <= j < i ==> es[j].name != "title"
    decreases |es|
  {
    if |es| == 0 then None
    else if es[0].name == "title" then Some(es[0])
    else
      var r := FirstTitle(es[1..]);
      assert forall e :: e in es ==> e == es[0] || e in es[1..];
      assert r.Some? ==> forall i :: 0 <= i < |es[1..]| && es[1..][i] == r.value ==> es[i + 1] == r.value;
      r
  }

  function ElementName(e: Element): string {
    e.name
  }

  /** `len(soup.find_all(name))` is the number of tags with that name,
      counted with repetition. */
  lemma {:induction false} FindAllCount(es: seq<Element>, name: string)
    ensures |Filter(Named(name), es)| == multiset(Map(ElementName, es))[name]
    decreases |es|
  {
    if |es| > 0 {
      FindAllCount(es[1..], name);
      assert Map(ElementName, es) == [es[0].name] + Map(ElementName, es[1..]);
    }
  }
}

=== FILE: nlp.dfy ===
/** The natural-language libraries and the static reference data. The
    libraries are uninterpreted: the model only fixes where their results are
    used. */
module Nlp {
  import opened Wrappers
  import opened Seqs
  import opened Text
  import opened Dom

  datatype Library = Library(
    /** `BeautifulSoup(html, 'html.parser')`; None when it raises. */
    parse: string -> Option<Document>,
    /** `nltk.word_tokenize`. */
    tokenize: string -> seq<string>,
    /** `WordNetLemmatizer().lemmatize`. */
    lemmatize: string -> string,
    /** `langdetect.detect`; None when it raises. */
    detect: string -> Option<string>,
    /** The text of spaCy's entities labelled ORG, in order. */
    orgs: string -> seq<string>)

  /** `stopwords.words('english')`, the loaded ccTLDs and the loaded entity names. */
  datatype References = References(stopWords: set<string>, cctlds: seq<string>, entities: seq<string>)

  /** One ccTLD as stored: `tld.replace(".", "")`, every character but the
      dots, in order. */
  function StripDots(tld: string): (r: string)
    ensures '.' !in r
    ensures IsSubsequence(r, tld)
    ensures r == Filter(NotChar('.'), tld)
  {
    ReplaceAllRemovesChar(tld, ".", "");
    ReplaceAllDeleteIsSubsequence(tld, ".");
    ReplaceCharByNothing(tld, '.');
    ReplaceAll(tld, ".", "")
  }

  /** A ccTLD without dots is stored as it is. */
  lemma StripDotsKeepsDotless(tld: string)
    requires '.' !in tld
    ensures StripDots(tld) == tld
  {
    assert !IsSubstring(".", tld) by {
      forall i | 0 <= i <= |tld| - 1
        ensures !OccursAt(".", tld, i)
      {
        assert tld[i] in tld;
      }
    }
    ReplaceAllWithoutOccurrence(tld, ".", "");
  }

  /** The ccTLD list built from the catalogue: the `tlds` of every entry, in
      catalogue order and with duplicates kept, each with its dots removed. */
  function LoadCcTlds(catalog: seq<seq<string>>): (r: seq<string>)
    ensures r == Map(StripDots, Flatten(catalog))
    ensures forall t :: t in r ==> '.' !in t
    ensures forall i, t :: 0 <= i < |catalog| && t in catalog[i] ==> StripDots(t) in r
    ensures forall t :: t in r ==> exists i, u :: 0 <= i < |catalog| && u in catalog[i] && t == StripDots(u)
    decreases |catalog|
  {
    if |catalog| == 0 then []
    else
      var rest := LoadCcTlds(catalog[1..]);
      MapConcat(StripDots, catalog[0], Flatten(catalog[1..]));
      var r := Map(StripDots, catalog[0]) + rest;
      assert r == Map(StripDots, Flatten(catalog));
      MapFlattenFacts(StripDots, catalog);
      r
  }

  /** The entity list built from the catalogue: every name of every entity
      type, in catalogue order and with duplicates kept, lower-cased. */
  function LoadEntities(catalog: seq<seq<string>>): (r: seq<string>)
    ensures r == Map(ToLower, Flatten(catalog))
    ensures forall e :: e in r ==> ToLower(e) == e
    ensures forall i, e :: 0 <= i < |catalog| && e in catalog[i] ==> ToLower(e) in r
    ensures forall e :: e in r ==> exists i, u :: 0 <= i < |catalog| && u in catalog[i] && e == ToLower(u)
    decreases |catalog|
  {
    if |catalog| == 0 then []
    else
      var rest := LoadEntities(catalog[1..]);
      MapConcat(ToLower, catalog[0], Flatten(catalog[1..]));
      var r := Map(ToLower, catalog[0]) + rest;
      assert r == Map(ToLower, Flatten(catalog));
      MapFlattenFacts(ToLower, catalog);
      assert forall e :: e in r ==> ToLower(e) == e by {
        forall e | e in r
          ensures ToLower(e) == e
        {
          ToLowerFixesLower(e);
        }
      }
      r
  }

  /** Membership in a mapped concatenation, in both directions. */
  lemma MapFlattenFacts(f: string -> string, catalog: seq<seq<string>>)
    ensures forall i, t :: 0 <= i < |catalog| && t in catalog[i] ==> f(t) in Map(f, Flatten(catalog))
    ensures forall t :: t in Map(f, Flatten(catalog)) ==> exists i, u :: 0 <= i < |catalog| && u in catalog[i] && t == f(u)
  {
    var flat := Flatten(catalog);
    var m := Map(f, flat);
    forall i, t | 0 <= i < |catalog| && t in catalog[i] ensures f(t) in m {
      assert t in flat;
      var k :| 0 <= k < |flat| && flat[k] == t;
      assert m[k] == f(t);
    }
    forall t | t in m ensures exists i, u :: 0 <= i < |catalog| && u in catalog[i] && t == f(u) {
      var k :| 0 <= k < |m| && m[k] == t;
      assert flat[k] in flat;
      var i :| 0 <= i < |catalog| && flat[k] in catalog[i];
    }
  }
}

=== FILE: scripts.dfy ===
/** The `js_include_b64` rule: does some inline script contain a base64 data
    URI, as found by `re.search("data:[a-zA-Z0-9+/]+={0,2}", content)`? */
module Scripts {
  import opened Wrappers
  import opened Dom
  import opened Table

  /** The regex character class `[a-zA-Z0-9+/]`. */
  predicate IsB64Char(c: char) {
    'a' <= c <= 'z' || 'A' <= c <= 'Z' || '0' <= c <= '9' || c == '+' || c == '/'
  }

  /** The regex matches `s[i..j + k]`: "data:" at `i`, one or more base64
      characters on `[i + 5, j)`, then `k` equals signs with `k` at most 2. */
  ghost predicate RegexMatch(s: string, i: int, j: int, k: int) {
    && 0 <= i && i + 5 < j && 0 <= k <= 2 && j + k <= |s|
    && s[i..i + 5] == "data:"
    && (forall t :: i + 5 <= t < j ==> IsB64Char(s[t]))
    && (forall t :: j <= t < j + k ==> s[t] == '=')
  }

  /** `re.search` succeeds: the pattern matches somewhere. */
  ghost predicate RegexSearch(s: string) {
    exists i, j, k :: RegexMatch(s, i, j, k)
  }

  /** "data:" at `i`, immediately followed by one base64 character. */
  predicate DataUriAt(s: string, i: nat) {
    i + 6 <= |s| && s[i..i + 5] == "data:" && IsB64Char(s[i + 5])
  }

  /** Scan `s` from index `from` for a data URI. */
  function ContainsDataUri(s: string, from: nat): (b: bool)
    ensures b <==> exists i :: from <= i && DataUriAt(s, i)
    decreases |s| - from
  {
    if from + 6 > |s| then false
    else DataUriAt(s, from) || ContainsDataUri(s, from + 1)
  }

  /** The `={0,2}` suffix and the greedy `+` never change whether the regex
      finds a match: it does exactly when "data:" is followed by one base64
      character somewhere. */
  lemma DataUriIsRegexSearch(s: string)
    ensures ContainsDataUri(s, 0) <==> RegexSearch(s)
  {
    if ContainsDataUri(s, 0) {
      var i :| 0 <= i && DataUriAt(s, i);
      assert RegexMatch(s, i, i + 6, 0);
    }
    if RegexSearch(s) {
      var i, j, k :| RegexMatch(s, i, j, k);
      assert DataUriAt(s, i);
    }
  }

  /** The content the loop inspects: None for an external script (one with a
      `src` attribute, whatever its value), otherwise the script's `.string`. */
  function InlineContent(script: Element): Option<string> {
    if "src" in script.attrs then None else script.str
  }

  predicate EmbedsB64(script: Element) {
    var content := InlineContent(script);
    content.Some? && ContainsDataUri(content.value, 0)
  }

  /** The regex-level reading of one script's test. */
  ghost predicate MatchesB64Regex(script: Element) {
    var content := InlineContent(script);
    content.Some? && RegexSearch(content.value)
  }

  /** The flag as a plain existential: some script embeds a data URI. */
  predicate JsIncludeB64(scripts: seq<Element>) {
    exists i | 0 <= i < |scripts| :: EmbedsB64(scripts[i])
  }

  /** The loop at webparse.py:101-111: start at 0, set 1 and `break` on the
      first inline script whose content matches. Stopping at the first match
      gives the same answer as asking whether any script matches. */
  method ScanScripts(scripts: seq<Element>) returns (flag: int)
    ensures flag == 0 || flag == 1
    ensures flag == 1 <==> exists i :: 0 <= i < |scripts| && MatchesB64Regex(scripts[i])
    ensures flag == BoolToInt(JsIncludeB64(scripts))
  {
    forall i | 0 <= i < |scripts| && InlineContent(scripts[i]).Some?
      ensures EmbedsB64(scripts[i]) <==> MatchesB64Regex(scripts[i])
    {
      DataUriIsRegexSearch(InlineContent(scripts[i]).value);
    }
    flag := 0;
    var n := 0;
    while n < |scripts|
      invariant 0 <= n <= |scripts|
      invariant forall j :: 0 <= j < n ==> !EmbedsB64(scripts[j])
    {
      var content := InlineContent(scripts[n]);
      if content.Some? && ContainsDataUri(content.value, 0) {
        flag := 1;
        break;
      }
      n := n + 1;
    }
  }
}

=== FILE: seqs.dfy ===
/** Order-preserving filtering and mapping of sequences: the shape of Python's
    `filter`, list comprehensions with an `if`, and boolean row selection. */
module Seqs {

  /** `a` is obtained from `b` by deleting elements, keeping the rest in order. */
  ghost predicate IsSubsequence<T>(a: seq<T>, b: seq<T>)
    decreases |b|
  {
    if |a| == 0 then true
    else if |b| == 0 then false
    else (a[0] == b[0] && IsSubsequence(a[1..], b[1..])) || IsSubsequence(a, b[1..])
  }

  /** The elements of `s` that satisfy `p`, in their original order. */
  function Filter<T>(p: T -> bool, s: seq<T>): (r: seq<T>)
    ensures |r| <= |s|
    ensures forall x :: x in r ==> x in s && p(x)
    ensures forall x :: x in s && p(x) ==> x in r
    ensures IsSubsequence(r, s)
    decreases |s|
  {
    if |s| == 0 then []
    else if p(s[0]) then [s[0]] + Filter(p, s[1..])
    else Filter(p, s[1..])
  }

  function Map<T, U>(f: T -> U, s: seq<T>): (r: seq<U>)
    ensures |r| == |s|
    ensures forall i :: 0 <= i < |s| ==> r[i] == f(s[i])
  {
    seq(|s|, i requires 0 <= i < |s| => f(s[i]))
  }

  lemma {:induction false} FilterConcat<T>(p: T -> bool, a: seq<T>, b: seq<T>)
    ensures Filter(p, a + b) == Filter(p, a) + Filter(p, b)
    decreases |a|
  {
    if |a| == 0 {
      assert a + b == b;
    } else {
      assert (a + b)[1..] == a[1..] + b;
      FilterConcat(p, a[1..], b);
    }
  }

  /** Filtering a sequence whose elements all pass changes nothing. */
  lemma {:induction false} FilterKeepsAll<T>(p: T -> bool, s: seq<T>)
    requires forall x :: x in s ==> p(x)
    ensures Filter(p, s) == s
    decreases |s|
  {
    if |s| > 0 {
      assert s[0] in s;
      assert forall x :: x in s[1..] ==> x in s;
      FilterKeepsAll(p, s[1..]);
    }
  }

  /** Filtering a sequence none of whose elements pass leaves nothing. */
  lemma {:induction false} FilterKeepsNone<T>(p: T -> bool, s: seq<T>)
    requires forall x :: x in s ==> !p(x)
    ensures Filter(p, s) == []
    decreases |s|
  {
    if |s| > 0 {
      assert s[0] in s;
      assert forall x :: x in s[1..] ==> x in s;
      FilterKeepsNone(p, s[1..]);
    }
  }

  lemma FilterIdempotent<T>(p: T -> bool, s: seq<T>)
    ensures Filter(p, Filter(p, s)) == Filter(p, s)
  {
    FilterKeepsAll(p, Filter(p, s));
  }

  /** Two filters in a row select what one filter on the conjunction selects. */
  lemma {:induction false} FilterFuse<T>(p: T -> bool, q: T -> bool, pq: T -> bool, s: seq<T>)
    requires forall x :: pq(x) == (p(x) && q(x))
    ensures Filter(q, Filter(p, s)) == Filter(pq, s)
    decreases |s|
  {
    if |s| > 0 {
      FilterFuse(p, q, pq, s[1..]);
      if p(s[0]) {
        assert Filter(p, s) == [s[0]] + Filter(p, s[1..]);
        assert Filter(q, Filter(p, s)) == Filter(q, [s[0]] + Filter(p, s[1..]));
        assert ([s[0]] + Filter(p, s[1..]))[1..] == Filter(p, s[1..]);
      }
    }
  }

  /** Mapping preserves the subsequence relation. */
  lemma {:induction false} MapSubsequence<T, U>(f: T -> U, a: seq<T>, b: seq<T>)
    requires IsSubsequence(a, b)
    ensures IsSubsequence(Map(f, a), Map(f, b))
    decreases |b|
  {
    if |a| > 0 {
      assert |b| > 0;
      assert Map(f, b)[1..] == Map(f, b[1..]);
      if a[0] == b[0] && IsSubsequence(a[1..], b[1..]) {
        MapSubsequence(f, a[1..], b[1..]);
        assert Map(f, a)[1..] == Map(f, a[1..]);
      } else {
        MapSubsequence(f, a, b[1..]);
      }
    }
  }

  /** Filtering keeps every occurrence of a passing element and no occurrence
      of any other: together with the subsequence property this fixes the
      result exactly. */
  lemma {:induction false} FilterMultiset<T>(p: T -> bool, s: seq<T>)
    ensures forall x :: multiset(Filter(p, s))[x] == if p(x) then multiset(s)[x] else 0
    decreases |s|
  {
    if |s| > 0 {
      FilterMultiset(p, s[1..]);
      assert s == [s[0]] + s[1..];
      assert multiset(s) == multiset([s[0]]) + multiset(s[1..]);
      if p(s[0]) {
        assert multiset(Filter(p, s)) == multiset([s[0]]) + multiset(Filter(p, s[1..]));
      }
    }
  }

  /** Mapping distributes over concatenation. */
  lemma MapConcat<T, U>(f: T -> U, a: seq<T>, b: seq<T>)
    ensures Map(f, a + b) == Map(f, a) + Map(f, b)
  {
    assert forall i :: 0 <= i < |a| ==> (a + b)[i] == a[i];
    assert forall i :: |a| <= i < |a| + |b| ==> (a + b)[i] == b[i - |a|];
  }

  /** The concatenation of a sequence of sequences, in order. */
  function Flatten<T>(ss: seq<seq<T>>): (r: seq<T>)
    ensures forall i, x :: 0 <= i < |ss| && x in ss[i] ==> x in r
    ensures forall x :: x in r ==> exists i :: 0 <= i < |ss| && x in ss[i]
    decreases |ss|
  {
    if |ss| == 0 then []
    else
      var rest := Flatten(ss[1..]);
      assert forall i :: 1 <= i < |ss| ==> ss[i] == ss[1..][i - 1];
      assert forall x :: x in rest ==> exists i :: 0 <= i < |ss| && x in ss[i] by {
        forall x | x in rest ensures exists i :: 0 <= i < |ss| && x in ss[i] {
          var j :| 0 <= j < |ss[1..]| && x in ss[1..][j];
          assert x in ss[j + 1];
        }
      }
      ss[0] + rest
  }
}

=== FILE: table.dfy ===
/** Cells and rows of the feature table: a Python feature dict, or one row of
    the pandas DataFrame read back from the CSV. */
module Table {

  /** A string, an integer, a Python bool, or a missing value (NaN). */
  datatype Cell = Str(s: string) | Num(n: int) | Flag(b: bool) | NaN

  type Row = map<string, Cell>

  /** Python's `int(b)`. */
  function BoolToInt(b: bool): int {
    if b then 1 else 0
  }
}

=== FILE: text.dfy ===
/** The pieces of Python's `str` and `string` module that the feature rules use:
    `string.printable`, `string.punctuation`, `lower`, `strip`, `in` on strings,
    `endswith`, `sep.join`, `split` and literal `replace`. */
module Text {
  import opened Seqs

  const Digits: string := "0123456789"
  const AsciiLowercase: string := "abcdefghijklmnopqrstuvwxyz"
  const AsciiUppercase: string := "ABCDEFGHIJKLMNOPQRSTUVWXYZ"
  const Punctuation: string := "!\"#$%&'()*+,-./:;<=>?@[\\]^_`{|}~"
  const Whitespace: string := " \t\n\r\U{000B}\U{000C}"
  /** `string.printable`: 100 characters, in Python's order. */
  const Printable: string := Digits + AsciiLowercase + AsciiUppercase + Punctuation + Whitespace

  predicate IsPrintable(c: char) {
    c in Printable
  }

  /** `remove_non_displayable`: keep the characters of `string.printable`, in order. */
  function RemoveNonDisplayable(s: string): (r: string)
    ensures forall c :: c in r ==> IsPrintable(c)
    ensures forall c :: c in s && IsPrintable(c) ==> c in r
    ensures IsSubsequence(r, s)
  {
    Filter(IsPrintable, s)
  }

  lemma RemoveNonDisplayableIdempotent(s: string)
    ensures RemoveNonDisplayable(RemoveNonDisplayable(s)) == RemoveNonDisplayable(s)
  {
    FilterIdempotent(IsPrintable, s);
  }

  /** The filter works character by character: it distributes over concatenation
      and keeps a single character exactly when that character is printable. */
  lemma RemoveNonDisplayableIsCharwise(a: string, b: string, c: char)
    ensures RemoveNonDisplayable(a + b) == RemoveNonDisplayable(a) + RemoveNonDisplayable(b)
    ensures RemoveNonDisplayable([c]) == if IsPrintable(c) then [c] else []
  {
    FilterConcat(IsPrintable, a, b);
    assert [c][1..] == [];
  }

  predicate IsUpper(c: char) {
    'A' <= c <= 'Z'
  }

  function LowerChar(c: char): (d: char)
    ensures !IsUpper(d)
  {
    if IsUpper(c) then (c as int + 32) as char else c
  }

  /** `str.lower` on the ASCII letters; every other character is kept. */
  function ToLower(s: string): (r: string)
    ensures |r| == |s|
    ensures forall c :: c in r ==> !IsUpper(c)
    ensures forall i :: 0 <= i < |s| && !IsUpper(s[i]) ==> r[i] == s[i]
    ensures forall i :: 0 <= i < |s| && IsUpper(s[i]) ==> r[i] as int == s[i] as int + 32
  {
    Map(LowerChar, s)
  }

  /** A string with no upper-case letter is its own lower-case form. */
  lemma ToLowerFixesLower(s: string)
    requires forall c :: c in s ==> !IsUpper(c)
    ensures ToLower(s) == s
  {
    forall i | 0 <= i < |s|
      ensures ToLower(s)[i] == s[i]
    {
      assert s[i] in s;
    }
  }

  /** `str.isspace` for one character. */
  predicate IsSpace(c: char) {
    || c == ' '
    || '\t' <= c <= '\r'
    || '\U{001C}' <= c <= '\U{001F}'
    || c == '\U{0085}' || c == '\U{00A0}' || c == '\U{1680}'
    || '\U{2000}' <= c <= '\U{200A}'
    || c == '\U{2028}' || c == '\U{2029}' || c == '\U{202F}' || c == '\U{205F}' || c == '\U{3000}'
  }

  function StripStart(s: string): (r: string)
    ensures |r| <= |s| && r == s[|s| - |r|..]
    ensures forall k :: 0 <= k < |s| - |r| ==> IsSpace(s[k])
    ensures |r| > 0 ==> !IsSpace(r[0])
    ensures forall c :: c in s && !IsSpace(c) ==> c in r
    decreases |s|
  {
    if |s| > 0 && IsSpace(s[0]) then
      assert forall c :: c in s ==> c == s[0] || c in s[1..];
      StripStart(s[1..])
    else s
  }

  function StripEnd(s: string): (r: string)
    ensures |r| <= |s| && r == s[..|r|]
    ensures forall k :: |r| <= k < |s| ==> IsSpace(s[k])
    ensures |r| > 0 ==> !IsSpace(r[|r| - 1])
    ensures forall c :: c in s && !IsSpace(c) ==> c in r
    decreases |s|
  {
    if |s| > 0 && IsSpace(s[|s| - 1]) then
      assert s == s[..|s| - 1] + [s[|s| - 1]];
      StripEnd(s[..|s| - 1])
    else s
  }

  /** `str.strip()`: drop leading and trailing whitespace. Every other
      character survives, and the result neither starts nor ends with space. */
  function Strip(s: string): (r: string)
    ensures |r| <= |s|
    ensures |r| > 0 ==> !IsSpace(r[0]) && !IsSpace(r[|r| - 1])
    ensures forall c :: c in s && !IsSpace(c) ==> c in r
    ensures exists i, j :: SpaceOutside(s, i, j) && r == s[i..j]
  {
    var t := StripStart(s);
    var r := StripEnd(t);
    SliceBetweenSpaces(s, t, r);
    assert |r| > 0 ==> r[0] == t[0];
    r
  }

  /** Whitespace cut from the front and then from the back leaves a slice
      with only whitespace outside it. */
  lemma SliceBetweenSpaces(s: string, t: string, r: string)
    requires |t| <= |s| && t == s[|s| - |t|..] && forall k :: 0 <= k < |s| - |t| ==> IsSpace(s[k])
    requires |r| <= |t| && r == t[..|r|] && forall k :: |r| <= k < |t| ==> IsSpace(t[k])
    ensures SpaceOutside(s, |s| - |t|, |s| - |t| + |r|)
    ensures r == s[|s| - |t|..|s| - |t| + |r|]
  {
    var i := |s| - |t|;
    forall k | i + |r| <= k < |s| ensures IsSpace(s[k]) {
      assert s[k] == t[k - i];
    }
  }

  /** Everything of `s` before `i` and from `j` on is whitespace. */
  predicate SpaceOutside(s: string, i: int, j: int) {
    && 0 <= i <= j <= |s|
    && (forall k :: 0 <= k < i ==> IsSpace(s[k]))
    && (forall k :: j <= k < |s| ==> IsSpace(s[k]))
  }

  /** `t` occurs in `s` starting at index `i`. */
  predicate OccursAt(t: string, s: string, i: int) {
    0 <= i && i + |t| <= |s| && s[i..i + |t|] == t
  }

  /** Python's `t in s` for two strings: substring containment. */
  predicate IsSubstring(t: string, s: string) {
    exists i | 0 <= i <= |s| - |t| :: OccursAt(t, s, i)
  }

  predicate EndsWith(s: string, suffix: string) {
    |suffix| <= |s| && s[|s| - |suffix|..] == suffix
  }

  /** `sep.join(parts)`. */
  function Join(parts: seq<string>, sep: string): string
    decreases |parts|
  {
    if |parts| == 0 then ""
    else if |parts| == 1 then parts[0]
    else parts[0] + sep + Join(parts[1..], sep)
  }

  /** `s.split(c)` for a one-character separator: the pieces between separators,
      empty pieces included, so there is always at least one. */
  function SplitOn(s: string, c: char): (r: seq<string>)
    ensures |r| >= 1
    decreases |s|
  {
    if |s| == 0 then [""]
    else
      var rest := SplitOn(s[1..], c);
      if s[0] == c then [""] + rest else [[s[0]] + rest[0]] + rest[1..]
  }

  lemma {:induction false} SplitOnWithoutSeparator(a: string, c: char)
    requires c !in a
    ensures SplitOn(a, c) == [a]
    decreases |a|
  {
    if |a| > 0 {
      SplitOnWithoutSeparator(a[1..], c);
      assert [a[0]] + a[1..] == a;
    }
  }

  lemma {:induction false} SplitOnAfterPiece(a: string, c: char, b: string)
    requires c !in a
    ensures SplitOn(a + [c] + b, c) == [a] + SplitOn(b, c)
    decreases |a|
  {
    if |a| == 0 {
      assert a + [c] + b == [c] + b;
      assert ([c] + b)[1..] == b;
    } else {
      assert (a + [c] + b)[1..] == a[1..] + [c] + b;
      SplitOnAfterPiece(a[1..], c, b);
      assert [a[0]] + a[1..] == a;
    }
  }

  /** Splitting a non-empty join on its separator gives the parts back when
      no part contains the separator. */
  lemma {:induction false} SplitJoinRoundTrip(parts: seq<string>, c: char)
    requires |parts| > 0
    requires forall p :: p in parts ==> c !in p
    ensures SplitOn(Join(parts, [c]), c) == parts
    decreases |parts|
  {
    if |parts| == 1 {
      SplitOnWithoutSeparator(parts[0], c);
    } else {
      assert parts[0] in parts;
      assert forall p :: p in parts[1..] ==> p in parts;
      SplitJoinRoundTrip(parts[1..], c);
      SplitOnAfterPiece(parts[0], c, Join(parts[1..], [c]));
    }
  }

  /** `s.replace(pat, rep)`, and `re.sub` with a pattern free of regex
      metacharacters: occurrences are found left to right, and the scan resumes
      after each replaced occurrence, so occurrences never overlap. */
  function ReplaceAll(s: string, pat: string, rep: string): string
    requires |pat| > 0
    decreases |s|
  {
    if |s| < |pat| then s
    else if s[..|pat|] == pat then rep + ReplaceAll(s[|pat|..], pat, rep)
    else [s[0]] + ReplaceAll(s[1..], pat, rep)
  }

  /** A string without any occurrence of the pattern is left as it is. */
  lemma {:induction false} ReplaceAllWithoutOccurrence(s: string, pat: string, rep: string)
    requires |pat| > 0
    requires !IsSubstring(pat, s)
    ensures ReplaceAll(s, pat, rep) == s
    decreases |s|
  {
    if |s| >= |pat| {
      assert !OccursAt(pat, s, 0);
      assert !IsSubstring(pat, s[1..]) by {
        forall i | 0 <= i <= |s[1..]| - |pat|
          ensures !OccursAt(pat, s[1..], i)
        {
          assert !OccursAt(pat, s, i + 1);
          assert s[1..][i..i + |pat|] == s[i + 1..i + 1 + |pat|];
        }
      }
      ReplaceAllWithoutOccurrence(s[1..], pat, rep);
      assert [s[0]] + s[1..] == s;
    }
  }

  /** Every character of the result comes from the input or the replacement. */
  lemma {:induction false} ReplaceAllCharacters(s: string, pat: string, rep: string, c: char)
    requires |pat| > 0
    requires c in ReplaceAll(s, pat, rep)
    ensures c in s || c in rep
    decreases |s|
  {
    if |s| >= |pat| {
      if s[..|pat|] == pat {
        if c !in rep {
          ReplaceAllCharacters(s[|pat|..], pat, rep, c);
          assert forall x :: x in s[|pat|..] ==> x in s;
        }
      } else if c != s[0] {
        ReplaceAllCharacters(s[1..], pat, rep, c);
        assert forall x :: x in s[1..] ==> x in s;
      }
    }
  }

  /** Replacing a single character by a string without it leaves none of it. */
  lemma {:induction false} ReplaceAllRemovesChar(s: string, pat: string, rep: string)
    requires |pat| == 1
    requires pat[0] !in rep
    ensures pat[0] !in ReplaceAll(s, pat, rep)
    decreases |s|
  {
    if |s| >= 1 {
      if s[..1] == pat {
        ReplaceAllRemovesChar(s[1..], pat, rep);
      } else {
        assert s[0] != pat[0] by { assert s[..1] == [s[0]]; }
        ReplaceAllRemovesChar(s[1..], pat, rep);
      }
    }
  }

  /** Deleting occurrences keeps the remaining characters in order. */
  lemma {:induction false} ReplaceAllDeleteIsSubsequence(s: string, pat: string)
    requires |pat| > 0
    ensures IsSubsequence(ReplaceAll(s, pat, ""), s)
    decreases |s|
  {
    if |s| >= |pat| {
      if s[..|pat|] == pat {
        ReplaceAllDeleteIsSubsequence(s[|pat|..], pat);
        SubsequenceOfSuffix(ReplaceAll(s[|pat|..], pat, ""), s, |pat|);
        assert "" + ReplaceAll(s[|pat|..], pat, "") == ReplaceAll(s[|pat|..], pat, "");
      } else {
        ReplaceAllDeleteIsSubsequence(s[1..], pat);
        assert ([s[0]] + ReplaceAll(s[1..], pat, ""))[1..] == ReplaceAll(s[1..], pat, "");
      }
    } else {
      SubsequenceReflexive(s);
    }
  }

  lemma {:induction false} SubsequenceReflexive(s: string)
    ensures IsSubsequence(s, s)
    decreases |s|
  {
    if |s| > 0 {
      SubsequenceReflexive(s[1..]);
    }
  }

  lemma {:induction false} SubsequenceOfSuffix(a: string, s: string, k: nat)
    requires k <= |s|
    requires IsSubsequence(a, s[k..])
    ensures IsSubsequence(a, s)
    decreases k
  {
    if k > 0 {
      assert s[1..][k - 1..] == s[k..];
      SubsequenceOfSuffix(a, s[1..], k - 1);
      if |a| > 0 {
        assert IsSubsequence(a, s[1..]);
      }
    }
  }

  function NotChar(c: char): char -> bool {
    x => x != c
  }

  /** Deleting every occurrence of one character keeps all the others, in order. */
  lemma {:induction false} ReplaceCharByNothing(s: string, c: char)
    ensures ReplaceAll(s, [c], "") == Filter(NotChar(c), s)
    decreases |s|
  {
    if |s| >= 1 {
      ReplaceCharByNothing(s[1..], c);
      assert s[..1] == [s[0]];
    }
  }

  /** Replacing one character by another works position by position. */
  lemma {:induction false} ReplaceCharByChar(s: string, c: char, d: char)
    ensures |ReplaceAll(s, [c], [d])| == |s|
    ensures forall i :: 0 <= i < |s| ==> ReplaceAll(s, [c], [d])[i] == if s[i] == c then d else s[i]
    decreases |s|
  {
    if |s| >= 1 {
      ReplaceCharByChar(s[1..], c, d);
      assert s[..1] == [s[0]];
      var rest := ReplaceAll(s[1..], [c], [d]);
      assert forall i :: 1 <= i < |s| ==> s[i] == s[1..][i - 1];
      if s[0] == c {
        assert ReplaceAll(s, [c], [d]) == [d] + rest;
      } else {
        assert ReplaceAll(s, [c], [d]) == [s[0]] + rest;
      }
    }
  }
}

=== FILE: webparse.dfy ===
/** The page-feature rules of `WebpageParser`: the smaller record of
    `parse_html` and the richer per-file record built inside `parse`. */
module WebParse {
  import opened Wrappers
  import opened Seqs
  import opened Text
  import opened Dom
  import opened Nlp
  import opened Table
  import opened Scripts

  // ---------------------------------------------------------------- title

  /** The title text handed to the tokenizer: stripped, lower-cased, then
      filtered to printable characters. */
  function TitleInput(raw: string): (r: string)
    ensures forall c :: c in r ==> IsPrintable(c) && !IsUpper(c)
  {
    RemoveNonDisplayable(ToLower(Strip(raw)))
  }

  /** `title_tokens`, when the page has a title tag whose `.string` is not None. */
  function TitleTokens(d: Document, lib: Library): Option<seq<string>> {
    var t := Title(d);
    if t.Some? && t.value.str.Some? then Some(lib.tokenize(TitleInput(t.value.str.value)))
    else None
  }

  /** `title_raw` of `parse_html`: the title tokens joined by single spaces;
      splitting it on spaces gives the tokens back when none holds a space. */
  function TitleRaw(d: Document, lib: Library): (r: string)
    ensures TitleTokens(d, lib).None? ==> r == ""
    ensures TitleTokens(d, lib) == Some([]) ==> r == ""
    ensures TitleTokens(d, lib).Some? && SpaceFreeTokens(TitleTokens(d, lib).value) ==>
      SplitOn(r, ' ') == TitleTokens(d, lib).value
  {
    match TitleTokens(d, lib)
    case None => ""
    case Some(tokens) =>
      JoinedTokensSplit(tokens);
      Join(tokens, " ")
  }

  /** `title_clean` of `parse`: the lemmatised title tokens joined by single
      spaces; splitting it on spaces gives the lemmas back, one per title
      token, when no lemma holds a space. */
  function TitleClean(d: Document, lib: Library): (r: string)
    ensures TitleTokens(d, lib).None? ==> r == ""
    ensures TitleTokens(d, lib) == Some([]) ==> r == ""
    ensures TitleTokens(d, lib).Some? && SpaceFreeTokens(Map(lib.lemmatize, TitleTokens(d, lib).value)) ==>
      SplitOn(r, ' ') == Map(lib.lemmatize, TitleTokens(d, lib).value)
  {
    match TitleTokens(d, lib)
    case None => ""
    case Some(tokens) =>
      JoinedTokensSplit(Map(lib.lemmatize, tokens));
      Join(Map(lib.lemmatize, tokens), " ")
  }

  /** At least one token, and no token contains a space. */
  predicate SpaceFreeTokens(tokens: seq<string>) {
    |tokens| > 0 && forall t :: t in tokens ==> ' ' !in t
  }

  lemma JoinedTokensSplit(tokens: seq<string>)
    ensures SpaceFreeTokens(tokens) ==> SplitOn(Join(tokens, " "), ' ') == tokens
  {
    if SpaceFreeTokens(tokens) {
      assert " " == [' '];
      SplitJoinRoundTrip(tokens, ' ');
    }
  }

  /** The title feature is "" exactly when there is no title to read, and
      otherwise comes from a printable, lower-case string. */
  lemma TitleFeature(d: Document, lib: Library)
    ensures (forall e :: e in d.elements ==> e.name != "title") ==> TitleRaw(d, lib) == "" && TitleClean(d, lib) == ""
    ensures Title(d).Some? && Title(d).value.str.None? ==> TitleRaw(d, lib) == "" && TitleClean(d, lib) == ""
    ensures TitleTokens(d, lib).Some? <==> exists e :: e in d.elements && e.name == "title" && Title(d) == Some(e) && e.str.Some?
    ensures TitleTokens(d, lib).Some? ==>
      var input := TitleInput(Title(d).value.str.value);
      && TitleTokens(d, lib) == Some(lib.tokenize(input))
      && (forall c :: c in input ==> IsPrintable(c) && !IsUpper(c))
  {
  }

  // ---------------------------------------------------------------- text and language

  /** `text = remove_non_displayable(soup.get_text())`. */
  function PageText(d: Document): string {
    RemoveNonDisplayable(d.text)
  }

  /** `detect(text) == "en"`; a detector that raises counts as "not English". */
  predicate IsEnglish(text: string, lib: Library) {
    lib.detect(text) == Some("en")
  }

  /** `nltk.word_tokenize(text.lower().strip())`. */
  function BodyTokens(d: Document, lib: Library): seq<string> {
    lib.tokenize(Strip(ToLower(PageText(d))))
  }

  // ---------------------------------------------------------------- forms and images

  /** A form that one of the two `find_all('form', {'method': ...})` calls returns. */
  predicate IsPostForm(e: Element) {
    e.name == "form" && (HasAttrValue(e, "method", "POST") || HasAttrValue(e, "method", "post"))
  }

  /** `has_form`: the two exact-match searches together find a form. */
  function HasForm(d: Document): (r: bool)
    ensures r <==> exists e :: e in d.elements && IsPostForm(e)
  {
    var upper := FindAllWith(d, "form", "method", "POST");
    var lower := FindAllWith(d, "form", "method", "post");
    assert |upper| > 0 ==> upper[0] in upper;
    assert |lower| > 0 ==> lower[0] in lower;
    |upper + lower| > 0
  }

  /** `is_post` (webparse.py:27-28): the case-insensitive test, which the
      feature rules never call. */
  predicate IsPost(e: Element) {
    ToLower(if "method" in e.attrs then e.attrs["method"] else "") == "post"
  }

  /** Every form that sets `has_form` passes `is_post`, but not the other way
      round: a form whose method is "Post" passes `is_post` and leaves
      `has_form` false. */
  lemma HasFormIsCaseSensitive()
    ensures forall e :: IsPostForm(e) ==> IsPost(e)
    ensures var form := Element("form", map["method" := "Post"], None);
      IsPost(form) && !HasForm(Document([form], ""))
  {
    assert ToLower("POST") == "post";
    assert ToLower("Post") == "post";
    var form := Element("form", map["method" := "Post"], None);
    assert form.attrs["method"] != "POST" && form.attrs["method"] != "post";
  }

  /** `has_login_form`: any password input anywhere in the page, whether or not
      it sits inside a form. */
  function HasLoginForm(d: Document): (r: bool)
    ensures r <==> exists e :: e in d.elements && e.name == "input" && HasAttrValue(e, "type", "password")
  {
    var inputs := FindAllWith(d, "input", "type", "password");
    assert |inputs| > 0 ==> inputs[0] in inputs;
    |inputs| > 0
  }

  /** `img_count`. */
  function ImgCount(d: Document): (n: nat)
    ensures n == multiset(Map(ElementName, d.elements))["img"]
    ensures n <= |d.elements|
    ensures n > 0 <==> exists e :: e in d.elements && e.name == "img"
  {
    FindAllCount(d.elements, "img");
    var imgs := FindAll(d, "img");
    assert |imgs| > 0 ==> imgs[0] in imgs;
    |imgs|
  }

  // ---------------------------------------------------------------- token cleaning

  /** The comprehension's test: the lower-case token is not a stop word, and
      the token is not a substring of `string.punctuation`. */
  predicate KeepToken(t: string, stopWords: set<string>) {
    ToLower(t) !in stopWords && !IsSubstring(t, Punctuation)
  }

  function Keeps(stopWords: set<string>): string -> bool {
    t => KeepToken(t, stopWords)
  }

  /** The empty string is a substring of every string, so an empty token is
      always dropped. */
  lemma EmptyTokenIsPunctuation()
    ensures IsSubstring("", Punctuation)
  {
    assert OccursAt("", Punctuation, 0);
  }

  /** `clean_tokens`: the tokens that pass, in order. */
  function CleanTokens(tokens: seq<string>, stopWords: set<string>): (r: seq<string>)
    ensures IsSubsequence(r, tokens)
    ensures forall t :: multiset(r)[t] == if KeepToken(t, stopWords) then multiset(tokens)[t] else 0
    ensures forall t :: t in r ==> ToLower(t) !in stopWords && !IsSubstring(t, Punctuation) && t != ""
    ensures forall t :: t in tokens && ToLower(t) !in stopWords && !IsSubstring(t, Punctuation) ==> t in r
  {
    EmptyTokenIsPunctuation();
    FilterMultiset(Keeps(stopWords), tokens);
    Filter(Keeps(stopWords), tokens)
  }

  /** The stop words of `parse`: English stop words, ccTLDs, and the names of
      the tags that occur in this page. */
  function PageStopWords(d: Document, refs: References): (r: set<string>)
    ensures forall w :: w in r <==> w in refs.stopWords || w in refs.cctlds || exists e :: e in d.elements && e.name == w
  {
    refs.stopWords + (set t | t in refs.cctlds) + TagNames(d)
  }

  /** A token that lower-cases to a loaded ccTLD, dots removed (".uk" is
      stored as "uk"), is a stop word of every page. */
  lemma CcTldIsStopWord(d: Document, refs: References, catalog: seq<seq<string>>, i: nat, t: string, x: string)
    requires refs.cctlds == LoadCcTlds(catalog)
    requires i < |catalog| && t in catalog[i] && ToLower(x) == StripDots(t)
    ensures ToLower(x) in PageStopWords(d, refs)
  {
    assert StripDots(t) in refs.cctlds;
  }

  /** `text_clean` splits back into exactly the clean tokens when no token
      holds a space; so `nb_tokens` is its number of space-separated pieces,
      and no piece is a stop word or punctuation. */
  lemma TextCleanSplitsIntoCleanTokens(tokens: seq<string>, stopWords: set<string>)
    requires forall t :: t in tokens ==> ' ' !in t
    ensures var clean := CleanTokens(tokens, stopWords);
      var text := Join(clean, " ");
      && (|clean| == 0 ==> text == "")
      && (|clean| > 0 ==> SplitOn(text, ' ') == clean)
      && (|clean| > 0 ==> forall piece :: piece in SplitOn(text, ' ') ==>
            ToLower(piece) !in stopWords && !IsSubstring(piece, Punctuation))
  {
    var clean := CleanTokens(tokens, stopWords);
    if |clean| > 0 {
      assert " " == [' '];
      SplitJoinRoundTrip(clean, ' ');
    }
  }

  // ---------------------------------------------------------------- entities

  function InTokens(tokens: seq<string>): string -> bool {
    e => ToLower(e) in tokens
  }

  /** `nb_title_entities`: the loop adds one per entry of the entity list
      (duplicates included) that is one of the title tokens. */
  function TitleEntityCount(entities: seq<string>, titleTokens: seq<string>): (n: nat)
    ensures n == |Filter(InTokens(titleTokens), entities)|
    decreases |entities|
  {
    if |entities| == 0 then 0
    else
      var init := entities[..|entities| - 1];
      var last := entities[|entities| - 1];
      assert init + [last] == entities;
      FilterConcat(InTokens(titleTokens), init, [last]);
      TitleEntityCount(init, titleTokens) + (if ToLower(last) in titleTokens then 1 else 0)
  }

  lemma TitleEntityCountBounds(entities: seq<string>, titleTokens: seq<string>)
    ensures TitleEntityCount(entities, titleTokens) <= |entities|
    ensures titleTokens == [] ==> TitleEntityCount(entities, titleTokens) == 0
    ensures (forall e :: e in entities ==> ToLower(e) in titleTokens) ==> TitleEntityCount(entities, titleTokens) == |entities|
  {
    var kept := Filter(InTokens(titleTokens), entities);
    if titleTokens == [] {
      FilterKeepsNone(InTokens(titleTokens), entities);
    }
    if forall e :: e in entities ==> ToLower(e) in titleTokens {
      FilterKeepsAll(InTokens(titleTokens), entities);
    }
  }

  /** The column name of an entity flag: lower-case, spaces replaced by "_". */
  function FlagKey(e: string): (k: string)
    ensures ' ' !in k
    ensures |k| == |e|
    ensures forall i :: 0 <= i < |e| ==> k[i] == if e[i] == ' ' then '_' else LowerChar(e[i])
  {
    ReplaceAllRemovesChar(ToLower(e), " ", "_");
    ReplaceCharByChar(ToLower(e), ' ', '_');
    var k := ReplaceAll(ToLower(e), " ", "_");
    assert forall i :: 0 <= i < |e| ==> ToLower(e)[i] == LowerChar(e[i]);
    k
  }

  function FlagOf(orgs: seq<string>): string -> (string, bool) {
    e => (FlagKey(e), ToLower(e) in orgs)
  }

  /** One (column, present-among-ORG-entities) pair per entry of the entity
      list, in list order. */
  function EntityFlags(entities: seq<string>, orgs: seq<string>): seq<(string, bool)> {
    Map(FlagOf(orgs), entities)
  }

  // ---------------------------------------------------------------- the per-page record of `parse`

  datatype PageFeatures = PageFeatures(
    title: string,
    isEnglish: bool,
    imgCount: nat,
    hasForm: bool,
    hasLoginForm: bool,
    hasJs: bool,
    jsIncludeB64: bool,
    cleanTokens: seq<string>,
    nbTitleEntities: nat,
    nbTextEntities: nat,
    entityFlags: seq<(string, bool)>)

  /** The features `parse` computes for one parsed page. A page without a
      usable title counts no title entities (see the as-written variant in
      the Corpus module for what the loop really does there). */
  function ExtractPage(d: Document, refs: References, lib: Library): (f: PageFeatures)
    ensures f.jsIncludeB64 ==> f.hasJs
    ensures f.hasJs <==> exists e :: e in d.elements && e.name == "script"
    ensures f.isEnglish ==> lib.detect(PageText(d)) == Some("en")
    ensures forall t :: t in f.cleanTokens ==> ToLower(t) !in PageStopWords(d, refs) && t != ""
    ensures forall t :: t in f.cleanTokens ==> ToLower(t) !in TagNames(d)
    ensures f.nbTitleEntities <= |refs.entities|
    ensures TitleTokens(d, lib).None? ==> f.title == "" && f.nbTitleEntities == 0
    ensures f.nbTextEntities == |lib.orgs(PageText(d))|
    ensures |f.entityFlags| == |refs.entities|
  {
    var text := PageText(d);
    var titleTokens := TitleTokens(d, lib).GetOr([]);
    var orgs := Map(ToLower, lib.orgs(text));
    var scripts := FindAll(d, "script");
    assert |scripts| > 0 ==> scripts[0] in scripts;
    TitleEntityCountBounds(refs.entities, titleTokens);
    PageFeatures(
      title := TitleClean(d, lib),
      isEnglish := IsEnglish(text, lib),
      imgCount := ImgCount(d),
      hasForm := HasForm(d),
      hasLoginForm := HasLoginForm(d),
      hasJs := |scripts| > 0,
      jsIncludeB64 := JsIncludeB64(scripts),
      cleanTokens := CleanTokens(Map(lib.lemmatize, BodyTokens(d, lib)), PageStopWords(d, refs)),
      nbTitleEntities := TitleEntityCount(refs.entities, titleTokens),
      nbTextEntities := |orgs|,
      entityFlags := EntityFlags(refs.entities, orgs))
  }

  /** The value of every feature of one page: `is_english` iff detection
      said "en"; the form, login-form, image and script signals from the
      page's tags; the clean tokens are the lemmatised body tokens that pass
      the stop-word and punctuation test, in order, every occurrence of a
      passing token kept; the title is `title_clean`; and each entity's flag
      is its column name and whether its lower-case form is among the
      lower-cased ORG entities of the text. */
  lemma ExtractPageValues(d: Document, refs: References, lib: Library)
    ensures var f := ExtractPage(d, refs, lib);
      var lemmas := Map(lib.lemmatize, BodyTokens(d, lib));
      var stop := PageStopWords(d, refs);
      && f.title == TitleClean(d, lib)
      && (f.isEnglish <==> lib.detect(PageText(d)) == Some("en"))
      && (f.hasForm <==> exists e :: e in d.elements && IsPostForm(e))
      && (f.hasLoginForm <==> exists e :: e in d.elements && e.name == "input" && HasAttrValue(e, "type", "password"))
      && f.imgCount == multiset(Map(ElementName, d.elements))["img"]
      && (f.jsIncludeB64 <==> exists e :: e in d.elements && e.name == "script" && EmbedsB64(e))
      && IsSubsequence(f.cleanTokens, lemmas)
      && (forall t :: multiset(f.cleanTokens)[t] == if KeepToken(t, stop) then multiset(lemmas)[t] else 0)
      && f.nbTitleEntities == TitleEntityCount(refs.entities, TitleTokens(d, lib).GetOr([]))
      && (forall i :: 0 <= i < |refs.entities| ==>
            f.entityFlags[i] == (FlagKey(refs.entities[i]), ToLower(refs.entities[i]) in Map(ToLower, lib.orgs(PageText(d)))))
  {
    ExtractPageSignals(d, refs, lib);
    ExtractPageTokens(d, refs, lib);
    ExtractPageEntities(d, refs, lib);
  }

  lemma ExtractPageSignals(d: Document, refs: References, lib: Library)
    ensures var f := ExtractPage(d, refs, lib);
      && f.title == TitleClean(d, lib)
      && (f.isEnglish <==> lib.detect(PageText(d)) == Some("en"))
      && (f.hasForm <==> exists e :: e in d.elements && IsPostForm(e))
      && (f.hasLoginForm <==> exists e :: e in d.elements && e.name == "input" && HasAttrValue(e, "type", "password"))
      && f.imgCount == multiset(Map(ElementName, d.elements))["img"]
      && (f.jsIncludeB64 <==> exists e :: e in d.elements && e.name == "script" && EmbedsB64(e))
  {
    ScriptsEmbedB64(d);
  }

  /** Some script tag of the page embeds a data URI. */
  lemma ScriptsEmbedB64(d: Document)
    ensures JsIncludeB64(FindAll(d, "script")) <==> exists e :: e in d.elements && e.name == "script" && EmbedsB64(e)
  {
    var scripts := FindAll(d, "script");
    if JsIncludeB64(scripts) {
      var i :| 0 <= i < |scripts| && EmbedsB64(scripts[i]);
      assert scripts[i] in scripts;
    }
    if e :| e in d.elements && e.name == "script" && EmbedsB64(e) {
      assert e in scripts;
      var i :| 0 <= i < |scripts| && scripts[i] == e;
    }
  }

  lemma ExtractPageTokens(d: Document, refs: References, lib: Library)
    ensures var f := ExtractPage(d, refs, lib);
      var lemmas := Map(lib.lemmatize, BodyTokens(d, lib));
      var stop := PageStopWords(d, refs);
      && IsSubsequence(f.cleanTokens, lemmas)
      && (forall t :: multiset(f.cleanTokens)[t] == if KeepToken(t, stop) then multiset(lemmas)[t] else 0)
  {
  }

  lemma ExtractPageEntities(d: Document, refs: References, lib: Library)
    ensures var f := ExtractPage(d, refs, lib);
      && f.nbTitleEntities == TitleEntityCount(refs.entities, TitleTokens(d, lib).GetOr([]))
      && (forall i :: 0 <= i < |refs.entities| ==>
            f.entityFlags[i] == (FlagKey(refs.entities[i]), ToLower(refs.entities[i]) in Map(ToLower, lib.orgs(PageText(d)))))
  {
  }

  // ---------------------------------------------------------------- the row of `parse`

  /** Lengths and first characters that tell the column names apart. */
  lemma ColumnNameFacts()
    ensures |"title_raw"| == 9 && |"img_count"| == 9 && |"nb_tokens"| == 9
    ensures |"is_english"| == 10 && |"text_clean"| == 10
    ensures |"has_login_form"| == 14 && |"js_include_b64"| == 14 && |"classification"| == 14
    ensures |"has_form"| == 8 && |"has_js"| == 6 && |"title_clean"| == 11
    ensures |"nb_title_entities"| == 17 && |"nb_text_entities"| == 16
    ensures "title_raw"[0] == 't' && "img_count"[0] == 'i' && "nb_tokens"[0] == 'n'
    ensures "is_english"[0] == 'i' && "text_clean"[0] == 't'
    ensures "has_login_form"[0] == 'h' && "js_include_b64"[0] == 'j' && "classification"[0] == 'c'
  {
  }

  const FixedColumns: set<string> := {
    "title_clean", "is_english", "img_count", "has_form", "has_login_form", "has_js",
    "js_include_b64", "nb_tokens", "text_clean", "nb_title_entities", "nb_text_entities"}

  /** The feature dict before the entity flags are added. */
  function BaseRow(f: PageFeatures): (r: Row)
    ensures r.Keys == FixedColumns
  {
    map[
      "title_clean" := Str(f.title),
      "is_english" := Num(BoolToInt(f.isEnglish)),
      "img_count" := Num(f.imgCount),
      "has_form" := Num(BoolToInt(f.hasForm)),
      "has_login_form" := Num(BoolToInt(f.hasLoginForm)),
      "has_js" := Num(BoolToInt(f.hasJs)),
      "js_include_b64" := Num(BoolToInt(f.jsIncludeB64)),
      "nb_tokens" := Num(|f.cleanTokens|),
      "text_clean" := Str(Join(f.cleanTokens, " ")),
      "nb_title_entities" := Num(f.nbTitleEntities),
      "nb_text_entities" := Num(f.nbTextEntities)]
  }

  function FlagKeys(flags: seq<(string, bool)>): set<string> {
    set p | p in flags :: p.0
  }

  /** `features[key] = int(exists)` for each flag, in order. */
  function ApplyFlags(m: Row, flags: seq<(string, bool)>): (r: Row)
    ensures r.Keys == m.Keys + FlagKeys(flags)
    ensures forall k :: k in m && k !in FlagKeys(flags) ==> r[k] == m[k]
    ensures forall k :: k in FlagKeys(flags) ==> r[k] == Num(0) || r[k] == Num(1)
    decreases |flags|
  {
    if |flags| == 0 then m
    else
      assert flags == [flags[0]] + flags[1..];
      assert FlagKeys(flags) == {flags[0].0} + FlagKeys(flags[1..]);
      ApplyFlags(m[flags[0].0 := Num(BoolToInt(flags[0].1))], flags[1..])
  }

  /** When two flags share a column, the later one decides its value. */
  lemma {:induction false} LastFlagWins(m: Row, flags: seq<(string, bool)>, j: nat)
    requires j < |flags|
    requires forall i :: j < i < |flags| ==> flags[i].0 != flags[j].0
    ensures ApplyFlags(m, flags)[flags[j].0] == Num(BoolToInt(flags[j].1))
    decreases |flags|
  {
    if j == 0 {
      var m' := m[flags[0].0 := Num(BoolToInt(flags[0].1))];
      assert flags[0].0 !in FlagKeys(flags[1..]) by {
        forall p | p in flags[1..]
          ensures p.0 != flags[0].0
        {
          var i :| 0 <= i < |flags[1..]| && flags[1..][i] == p;
          assert flags[i + 1] == p;
        }
      }
    } else {
      LastFlagWins(m[flags[0].0 := Num(BoolToInt(flags[0].1))], flags[1..], j - 1);
    }
  }

  /** The row `parse` appends: the feature dict, the entity flags, then
      `classification`. */
  function ToRow(f: PageFeatures, tag: string): (r: Row)
    ensures r.Keys == FixedColumns + FlagKeys(f.entityFlags) + {"classification"}
    ensures r["classification"] == Str(tag)
    ensures forall k :: k in FlagKeys(f.entityFlags) && k != "classification" ==> r[k] == Num(0) || r[k] == Num(1)
  {
    ApplyFlags(BaseRow(f), f.entityFlags)["classification" := Str(tag)]
  }

  /** A fixed column keeps the value computed for it unless an entity's flag
      column has the same name: an entity called "nb tokens" overwrites
      `nb_tokens`. When none collides, `nb_tokens` is the number of clean tokens
      and `text_clean` their space-joined string. */
  lemma RowFixedColumns(f: PageFeatures, tag: string)
    ensures forall k :: k in FixedColumns && k !in FlagKeys(f.entityFlags) ==> ToRow(f, tag)[k] == BaseRow(f)[k]
    ensures "nb_tokens" !in FlagKeys(f.entityFlags) ==> ToRow(f, tag)["nb_tokens"] == Num(|f.cleanTokens|)
    ensures "text_clean" !in FlagKeys(f.entityFlags) ==> ToRow(f, tag)["text_clean"] == Str(Join(f.cleanTokens, " "))
    ensures "is_english" !in FlagKeys(f.entityFlags) ==> ToRow(f, tag)["is_english"] == Num(BoolToInt(f.isEnglish))
  {
    ColumnNameFacts();
    assert forall k :: k in FixedColumns ==> k != "classification";
    BaseRowValues(f);
  }

  lemma BaseRowValues(f: PageFeatures)
    ensures BaseRow(f)["nb_tokens"] == Num(|f.cleanTokens|)
    ensures BaseRow(f)["text_clean"] == Str(Join(f.cleanTokens, " "))
    ensures BaseRow(f)["is_english"] == Num(BoolToInt(f.isEnglish))
  {
    ColumnNameFacts();
  }

  // ---------------------------------------------------------------- `parse_html`

  const HtmlColumns: set<string> := {
    "title_raw", "is_english", "img_count", "has_form", "has_login_form", "has_js",
    "js_include_b64", "nb_tokens", "text_clean"}

  /** The record `parse_html` returns for a parsed page: title tokens are not
      lemmatised, body tokens are not lemmatised, only the English stop words
      are removed, no entities, and `is_english` is a bool. */
  function HtmlRow(d: Document, refs: References, lib: Library): (r: Row)
    ensures r.Keys == HtmlColumns
  {
    var clean := CleanTokens(BodyTokens(d, lib), refs.stopWords);
    var scripts := FindAll(d, "script");
    HtmlRecord(TitleRaw(d, lib), IsEnglish(PageText(d), lib), ImgCount(d), HasForm(d), HasLoginForm(d),
      |scripts| > 0, JsIncludeB64(scripts), clean)
  }

  /** The dict literal of `parse_html`, filled in column by column. */
  function HtmlRecord(title: string, english: bool, imgs: nat, form: bool, login: bool, js: bool, b64: bool, clean: seq<string>)
    : (r: Row)
    ensures r.Keys == HtmlColumns
  {
    map[
      "title_raw" := Str(title),
      "is_english" := Flag(english),
      "img_count" := Num(imgs),
      "has_form" := Num(BoolToInt(form)),
      "has_login_form" := Num(BoolToInt(login)),
      "has_js" := Num(BoolToInt(js)),
      "js_include_b64" := Num(BoolToInt(b64)),
      "nb_tokens" := Num(|clean|),
      "text_clean" := Str(Join(clean, " "))]
  }

  lemma HtmlRecordFlagCells(title: string, english: bool, imgs: nat, form: bool, login: bool, js: bool, b64: bool, clean: seq<string>)
    ensures var r := HtmlRecord(title, english, imgs, form, login, js, b64, clean);
      && r["is_english"] == Flag(english)
      && r["has_form"] == Num(BoolToInt(form))
      && r["has_login_form"] == Num(BoolToInt(login))
      && r["has_js"] == Num(BoolToInt(js))
      && r["js_include_b64"] == Num(BoolToInt(b64))
  {
    ColumnNameFacts();
    var r := HtmlRecord(title, english, imgs, form, login, js, b64, clean);
    assert r["is_english"] == Flag(english);
    assert r["has_form"] == Num(BoolToInt(form));
    assert r["has_login_form"] == Num(BoolToInt(login));
    assert r["has_js"] == Num(BoolToInt(js));
    assert r["js_include_b64"] == Num(BoolToInt(b64));
  }

  lemma HtmlRecordImgCell(title: string, english: bool, imgs: nat, form: bool, login: bool, js: bool, b64: bool, clean: seq<string>)
    ensures HtmlRecord(title, english, imgs, form, login, js, b64, clean)["img_count"] == Num(imgs)
  {
    ColumnNameFacts();
  }

  lemma HtmlRecordTextCells(title: string, english: bool, imgs: nat, form: bool, login: bool, js: bool, b64: bool, clean: seq<string>)
    ensures var r := HtmlRecord(title, english, imgs, form, login, js, b64, clean);
      && r["title_raw"] == Str(title)
      && r["nb_tokens"] == Num(|clean|)
      && r["text_clean"] == Str(Join(clean, " "))
  {
    ColumnNameFacts();
    var r := HtmlRecord(title, english, imgs, form, login, js, b64, clean);
    assert r["title_raw"] == Str(title);
    assert r["nb_tokens"] == Num(|clean|);
    assert r["text_clean"] == Str(Join(clean, " "));
  }

  /** The cell each column of `parse_html`'s record holds. */
  lemma HtmlRowCells(d: Document, refs: References, lib: Library)
    ensures var r := HtmlRow(d, refs, lib);
      var clean := CleanTokens(BodyTokens(d, lib), refs.stopWords);
      var scripts := FindAll(d, "script");
      && r["is_english"] == Flag(IsEnglish(PageText(d), lib))
      && r["img_count"] == Num(ImgCount(d))
      && r["has_form"] == Num(BoolToInt(HasForm(d)))
      && r["has_login_form"] == Num(BoolToInt(HasLoginForm(d)))
      && r["has_js"] == Num(BoolToInt(|scripts| > 0))
      && r["js_include_b64"] == Num(BoolToInt(JsIncludeB64(scripts)))
      && r["nb_tokens"] == Num(|clean|)
      && r["text_clean"] == Str(Join(clean, " "))
      && r["title_raw"] == Str(TitleRaw(d, lib))
  {
    var scripts := FindAll(d, "script");
    HtmlRecordFlagCells(TitleRaw(d, lib), IsEnglish(PageText(d), lib), ImgCount(d), HasForm(d), HasLoginForm(d),
      |scripts| > 0, JsIncludeB64(scripts), CleanTokens(BodyTokens(d, lib), refs.stopWords));
    HtmlRecordTextCells(TitleRaw(d, lib), IsEnglish(PageText(d), lib), ImgCount(d), HasForm(d), HasLoginForm(d),
      |scripts| > 0, JsIncludeB64(scripts), CleanTokens(BodyTokens(d, lib), refs.stopWords));
    HtmlRecordImgCell(TitleRaw(d, lib), IsEnglish(PageText(d), lib), ImgCount(d), HasForm(d), HasLoginForm(d),
      |scripts| > 0, JsIncludeB64(scripts), CleanTokens(BodyTokens(d, lib), refs.stopWords));
  }

  /** The values of `parse_html`'s record: `is_english` is True only when
      detection returned "en"; `has_form` and `has_login_form` follow the
      exact-match searches; `js_include_b64` is never set without a script;
      `nb_tokens` counts the clean tokens that `text_clean` joins. */
  lemma HtmlRowValues(d: Document, refs: References, lib: Library)
    ensures var r := HtmlRow(d, refs, lib);
      && (r["is_english"] == Flag(true) <==> lib.detect(PageText(d)) == Some("en"))
      && (lib.detect(PageText(d)).None? ==> r["is_english"] == Flag(false))
      && r["img_count"] == Num(multiset(Map(ElementName, d.elements))["img"])
      && (r["has_form"] == Num(1) <==> exists e :: e in d.elements && IsPostForm(e))
      && (r["has_login_form"] == Num(1) <==> exists e :: e in d.elements && e.name == "input" && HasAttrValue(e, "type", "password"))
      && (r["has_js"] == Num(0) ==> r["js_include_b64"] == Num(0))
      && r["nb_tokens"] == Num(|CleanTokens(BodyTokens(d, lib), refs.stopWords)|)
      && r["text_clean"] == Str(Join(CleanTokens(BodyTokens(d, lib), refs.stopWords), " "))
      && r["title_raw"] == Str(TitleRaw(d, lib))
  {
    HtmlRowCells(d, refs, lib);
  }

  /** `parse_html(html)`: the parser's exception propagates (None). */
  function ParseHtml(html: string, refs: References, lib: Library): (r: Option<Row>)
    ensures r.Some? <==> lib.parse(html).Some?
    ensures r.Some? ==> r.value.Keys == HtmlColumns
  {
    match lib.parse(html)
    case None => None
    case Some(d) => Some(HtmlRow(d, refs, lib))
  }
}

=== FILE: wrappers.dfy ===
/** Values that may be absent (Python's None, or a library call that raised)
    and results that may carry an error. */
module Wrappers {

  datatype Option<+T> = None | Some(value: T) {

    /** The wrapped value, or `default` when there is none. */
    function GetOr(default: T): T {
      match this
      case Some(v) => v
      case None => default
    }
  }

  datatype Result<+T, +E> = Ok(value: T) | Err(error: E)
}
